=== FILE: README.md ===
# absencia-attendance-sync — client data layer in Dafny

This project models the browser-side core of the absencia attendance
application:

- **The entity store.** This is `studentStorage`, which holds filières, classes, students and absences in `localStorage`.
- **The `useStudentData` hook.** It takes snapshots, chooses between update and add on save, guards deletes, and deletes many students in a loop.
- **The navigation and dialog hooks** of the students page.
- **The view dispatcher**, with its back buttons.
- **The role gates** of the side menu and the router, and the demo login.
- **The absence entry sheet** and **the absence validation screen**.
- **The form validators.**
- **The search filters and counts** of the overview, filière and classe screens.

## How the source maps to Dafny

- **Storage.** `localStorage` is the class `Storage.LocalStorage`, with one field per key.
  - Each field is a `Slot`: a key that was never written (`Unset`), a stored array (`Stored`), or text that `JSON.parse` rejects (`Unparsable`).
  - The getters return `Result`. `Thrown` is the exception an unparsable key raises.
- **Store operations.** These are methods over a `LocalStorage`, just as the source's operations all work on the one global store.
  - Each method is proved to leave its key holding exactly a slot-level function of the old contents: `Appended`, `Updated`, the `…AfterDelete…` functions and `Seeded`.
  - The store's promises are lemmas about those functions.
- **Stateful code.** The hooks and the stateful screens are classes.
  - Their fields are the React state: `StudentData`, `NavigationHandlers`, `DialogHandlers`, `App`, `AbsenceEntry`, `AbsenceAdmin` and `ClasseView`.
  - The handlers are methods with `modifies` clauses.
- **Pure code.** The filters, counts, route table, menu table and view dispatch are functions.
- **Payloads.** The untyped form payloads and `editingItem` are `Bag = map<string, string>`.
- **External values.** Ids and timestamps (`Date.now()`, `toISOString()`) are parameters.
  - The date parse behind the newest-first sort is a parameter `timeOf`.

Some behaviour of the code is easy to get wrong; the model follows the code:

- **Unparsable data throws.** Stored data that does not parse makes `JSON.parse` throw. It does not read as an empty list. Every handler that catches the exception reports failure.
- **No justify operation.** Nothing sets `justification`.
- **Back from a student** goes to the filière screen, not the classe screen.
- **The absence sheet's own key.** The absence entry sheet appends its records to a separate `'absences'` key, in a shape of its own. Its records never reach the store's absences.

## Model

| member | source | states |
|---|---|---|
| Storage.Load | src/utils/studentStorage.ts:56-59 | A key never written reads as `[]`; the read throws exactly when the stored text is unparsable |
| Storage.SaveThenLoad | src/utils/studentStorage.ts:61-63 | Saving a list and reading it back returns that list |
| Storage.LocalStorage.constructor | src/utils/studentStorage.ts:47-52 | A fresh profile has all five keys unwritten |
| StudentStorage.GetFilieres | src/utils/studentStorage.ts:56-59 | `[]` for an unwritten key; throws iff the key is unparsable |
| StudentStorage.GetClasses | src/utils/studentStorage.ts:105-108 | Same as getFilieres, for the classes key |
| StudentStorage.GetStudents | src/utils/studentStorage.ts:148-151 | Same as getFilieres, for the students key |
| StudentStorage.GetAbsences | src/utils/studentStorage.ts:191-194 | Same as getFilieres, for the absences key |
| StudentStorage.GetStudentsByClasse | src/utils/studentStorage.ts:186-188 | Exactly the stored students with that classeId; throws iff the key is unparsable |
| StudentStorage.SaveFilieres | src/utils/studentStorage.ts:61-63 | The key then holds exactly the given list |
| StudentStorage.SaveClasses | src/utils/studentStorage.ts:110-112 | The key then holds exactly the given list |
| StudentStorage.SaveStudents | src/utils/studentStorage.ts:153-155 | The key then holds exactly the given list |
| StudentStorage.SaveAbsences | src/utils/studentStorage.ts:196-198 | The key then holds exactly the given list |
| StudentStorage.Appended | src/utils/studentStorage.ts:65-75 | Specifies every add: the stored list grows by the one record at its end; an unparsable key is left as it is |
| StudentStorage.AppendedKeepsPrefix | src/utils/studentStorage.ts:65-75 | After an add the list is one longer, its earlier records are unchanged, and the last record is the new one |
| Entities.NewFiliere | src/utils/studentStorage.ts:67-71 | The new record carries the given fields plus the fresh id and createdAt |
| Entities.NewClasse | src/utils/studentStorage.ts:116-120 | The new record carries the given fields plus the fresh id and createdAt |
| Entities.NewStudent | src/utils/studentStorage.ts:159-163 | The new record carries the given fields plus the fresh id and createdAt |
| Entities.NewAbsence | src/utils/studentStorage.ts:202-206 | The new record carries the given fields plus the fresh id and createdAt |
| StudentStorage.AddFiliere | src/utils/studentStorage.ts:65-75 | Read, push, write back: the key becomes `Appended(old, new filière)` and the new record is returned; it throws without writing on unparsable data |
| StudentStorage.AddClass | src/utils/studentStorage.ts:114-124 | Same as addFiliere, for classes |
| StudentStorage.AddStudent | src/utils/studentStorage.ts:157-167 | Same as addFiliere, for students |
| StudentStorage.AddAbsence | src/utils/studentStorage.ts:200-210 | Same as addFiliere, for absences |
| StudentStorage.MatchIndex | src/utils/studentStorage.ts:79 | findIndex: -1 iff no record has the id (or the id is undefined); otherwise the first record with that id |
| Entities.MergeFiliere | src/utils/studentStorage.ts:81 | `{...record, ...updates}`: each property present in the patch overwrites the record's, and each absent one is kept |
| Entities.MergeClasse | src/utils/studentStorage.ts:130 | Same shallow merge, for classes |
| Entities.MergeStudent | src/utils/studentStorage.ts:173 | Same shallow merge, for students |
| StudentStorage.Updated | src/utils/studentStorage.ts:77-86 | An unknown id leaves the key untouched; a known id changes only the first matching index, which becomes the merge |
| StudentStorage.UpdateResult | src/utils/studentStorage.ts:77-86 | Throws iff the key is unparsable; `null` iff no record has the id |
| StudentStorage.UpdateFiliere | src/utils/studentStorage.ts:77-86 | Index assignment on the read list and write-back: the key becomes `Updated(old, …)`, and the return is `UpdateResult` |
| StudentStorage.UpdateClasse | src/utils/studentStorage.ts:126-135 | Same as updateFiliere, for classes |
| StudentStorage.UpdateStudent | src/utils/studentStorage.ts:169-178 | Same as updateFiliere, for students |
| Entities.StatutOnlyUpdate | src/utils/studentStorage.ts:169-178 | Updating a student with a statut-only patch changes its statut and nothing else |
| StudentStorage.MarkValidated | src/utils/studentStorage.ts:215-221 | The validated record has validated = true and records who validated and when; id, studentId, session, date, type, formateur, justification and createdAt are unchanged |
| StudentStorage.ValidateAbsence | src/utils/studentStorage.ts:212-226 | The absences key becomes `Updated(old, id, MarkValidated)`; an unknown id returns null and writes nothing |
| StudentStorage.ValidateIsMonotone | src/utils/studentStorage.ts:212-226 | Validation never un-validates: the list length is kept, and a record validated before is validated after |
| StudentStorage.WithoutFiliere | src/utils/studentStorage.ts:90 | Exactly the filières with another id |
| StudentStorage.ClassesOutsideFiliere | src/utils/studentStorage.ts:94 | Exactly the classes of other filières |
| StudentStorage.WithoutClasse | src/utils/studentStorage.ts:139 | Exactly the classes with another id |
| StudentStorage.StudentsOutsideClasse | src/utils/studentStorage.ts:143 | Exactly the students of other classes |
| StudentStorage.WithoutStudent | src/utils/studentStorage.ts:182 | Exactly the students with another id |
| StudentStorage.DeleteFiliere | src/utils/studentStorage.ts:88-102 | Writes the filières, then the classes, then the students filtered against the surviving classes; a later read that throws leaves the earlier writes in place |
| StudentStorage.DeleteFiliereCascade | src/utils/studentStorage.ts:88-102 | After the cascade, no filière or classe refers to the id, and every surviving student's classeId names a surviving classe (so earlier orphans go too); the survivors keep their order |
| StudentStorage.GuardedFiliereDeleteKeepsClasses | src/utils/studentStorage.ts:94 | A filière owning no classe loses no classe in the cascade |
| StudentStorage.DeleteClasse | src/utils/studentStorage.ts:137-145 | Writes the classes without the id, then the students outside the classe |
| StudentStorage.DeleteClasseCascade | src/utils/studentStorage.ts:137-145 | No classe with the id and no student with that classeId remains; the survivors keep their order |
| StudentStorage.GuardedClasseDeleteKeepsStudents | src/utils/studentStorage.ts:143 | A classe with no student loses no student in the cascade |
| StudentStorage.DeleteStudent | src/utils/studentStorage.ts:180-184 | The students key becomes the list without that id |
| StudentStorage.DeleteStudentIdempotent | src/utils/studentStorage.ts:180-184 | Deleting twice is deleting once |
| StudentStorage.DeleteUnknownStudent | src/utils/studentStorage.ts:180-184 | Deleting an id no student has leaves the list as it was |
| StudentStorage.Seeded | src/utils/studentStorage.ts:229-247 | An empty filière list becomes exactly two filières, TSDI then TSRI; any other content, a non-empty list or unparsable text, is untouched |
| StudentStorage.SeedIsIdempotent | src/utils/studentStorage.ts:229-247 | A second seeding changes nothing, whatever fresh ids it is given |
| StudentStorage.InitializeDefaultData | src/utils/studentStorage.ts:229-247 | Two addFiliere calls on an empty list: the key becomes `Seeded(old)`; throws iff the key is unparsable |
| Entities.Lookup | src/hooks/useStudentData.ts:39 | Reading `item.id` on a payload: present iff the key is there |
| StudentDataHook.StudentData.constructor | src/hooks/useStudentData.ts:7-10 | The snapshots start empty and refreshKey starts at 0 |
| StudentDataHook.StudentData.LoadData | src/hooks/useStudentData.ts:18-29 | The snapshots become the stored lists; a read that throws leaves them unchanged |
| StudentDataHook.StudentData.Reload | src/hooks/useStudentData.ts:12-16 | The effect body: seed the filières, then reload all three snapshots from the store |
| StudentDataHook.StudentData.HandleSaveFiliere | src/hooks/useStudentData.ts:35-56 | A present editingItem updates the record at `editingItem.id` with the data; otherwise the data is added. Returns true iff no exception, and only then bumps refreshKey |
| StudentDataHook.StudentData.HandleSaveClasse | src/hooks/useStudentData.ts:58-79 | The same dispatch for classes |
| StudentDataHook.StudentData.HandleSaveStudent | src/hooks/useStudentData.ts:81-102 | The same dispatch for students |
| StudentDataHook.EditKeepsClasseIds | src/hooks/useStudentData.ts:58-68 | An edit whose form carries the edited id keeps every classe's id and the list length |
| StudentDataHook.StudentData.HandleAddStudentToClasse | src/hooks/useStudentData.ts:104-118 | Always an add of the given fields; refreshKey is bumped unless the read throws |
| StudentDataHook.DeleteRefused | src/hooks/useStudentData.ts:125-146 | The guard, on the snapshots: a filière delete is refused iff some classe has that filiereId, and a classe delete iff some student has that classeId; a student delete is never refused |
| StudentDataHook.StudentData.HandleDelete | src/hooks/useStudentData.ts:120-164 | A refused delete writes nothing and keeps refreshKey; otherwise it runs the cascade of its kind exactly (a student delete always delegates to deleteStudent) and bumps refreshKey iff no read throws |
| StudentDataHook.GuardedFiliereDeleteLosesNoClasse | src/hooks/useStudentData.ts:125-133 | When the classes snapshot equals the stored classes and the guard lets a filière delete through, the cascade leaves the classes key exactly as it was |
| StudentDataHook.GuardedClasseDeleteLosesNoStudent | src/hooks/useStudentData.ts:138-146 | When the students snapshot equals the stored students and the guard lets a classe delete through, the cascade leaves the students key exactly as it was |
| StudentDataHook.StudentsExcept | src/hooks/useStudentData.ts:166-171 | Exactly the students whose id is not among the ids |
| StudentDataHook.ExceptNone | src/hooks/useStudentData.ts:166-171 | Deleting no ids keeps every student |
| StudentDataHook.ExceptStep | src/hooks/useStudentData.ts:169-171 | One more deleteStudent after a batch is the longer batch |
| StudentDataHook.DeleteManyKeepsOrder | src/hooks/useStudentData.ts:166-171 | The other students keep their order |
| StudentDataHook.StudentData.HandleDeleteStudents | src/hooks/useStudentData.ts:166-186 | The forEach loop leaves exactly `StudentsExcept(old, ids)`: no listed id remains and every other student is unchanged. Returns true iff no read throws |
| StudentDataHook.AddClasseToFiliereSaveIsLost | src/hooks/useStudentData.ts:61-62 | As written, saving from the add-classe-to-filière dialog leaves the classes unchanged (see Findings) |
| StudentDataHook.IntendedClassesAfterSave | src/hooks/useStudentData.ts:58-68 | Corrected dispatch: it agrees with the source whenever the item has an id; otherwise it adds exactly one classe |
| StudentDataHook.IntendedAddClasseToFiliere | src/hooks/useDialogHandlers.ts:29-34 | With the corrected dispatch, the add-classe path appends one classe with the fresh id and the filière's id, after the earlier ones |
| Navigation.NavigationHandlers.constructor | src/hooks/useNavigationHandlers.ts:6-9 | The initial state is the overview with no filière, classe or student selected |
| Navigation.NavigationHandlers.HandleViewFiliere | src/hooks/useNavigationHandlers.ts:11-15 | View becomes filière and the filière is selected; the classe and student selections are untouched |
| Navigation.NavigationHandlers.HandleViewClasse | src/hooks/useNavigationHandlers.ts:17-21 | View becomes classe and the classe is selected; the filière and student selections are kept |
| Navigation.NavigationHandlers.HandleViewStudent | src/hooks/useNavigationHandlers.ts:23-27 | View becomes student and the student is selected; the filière and classe selections are kept |
| Navigation.NavigationHandlers.HandleBackToOverview | src/hooks/useNavigationHandlers.ts:29-34 | Overview with all three selections cleared |
| Navigation.NavigationHandlers.HandleBackToFiliere | src/hooks/useNavigationHandlers.ts:36-40 | Filière view, keeping the filière and clearing the classe and student |
| Navigation.BackIsIdempotent | src/hooks/useNavigationHandlers.ts:29-40 | Each back handler is idempotent, and back-to-overview after either gives the initial state |
| DialogHandling.DialogHandlers.constructor | src/hooks/useDialogHandlers.ts:6-8 | The dialog starts closed, of type filière, with no item |
| DialogHandling.DialogHandlers.OpenDialog | src/hooks/useDialogHandlers.ts:16-21 | Open, with the given type and the given item (null when omitted) |
| DialogHandling.DialogHandlers.CloseDialog | src/hooks/useDialogHandlers.ts:23-27 | Closed, with no item; dialogType is kept |
| DialogHandling.DialogHandlers.HandleAddClasseToFiliere | src/hooks/useDialogHandlers.ts:29-34 | Opens a classe dialog whose editingItem is `{ filiereId }` |
| DialogHandling.DialogHandlers.HandleEditClasse | src/hooks/useDialogHandlers.ts:36-43 | Nothing changes for a missing item or one without a truthy id; otherwise a classe dialog opens on the item |
| DialogHandling.DialogHandlers.HandleEditStudent | src/hooks/useDialogHandlers.ts:45-52 | The same for students |
| DialogHandling.DialogHandlers.HandleSaveFiliereWithClose | src/hooks/useDialogHandlers.ts:54-61 | Saves with the current editingItem, closes iff the save returned true, and returns that value; otherwise the dialog state is unchanged |
| DialogHandling.DialogHandlers.HandleSaveClasseWithClose | src/hooks/useDialogHandlers.ts:63-70 | The same, for classes |
| DialogHandling.DialogHandlers.HandleSaveStudentWithClose | src/hooks/useDialogHandlers.ts:72-79 | The same, for students |
| ViewRendering.Render | src/components/students/ViewRenderer.tsx:53-140 | Student screen iff view = student with a student selected, and only when its classe and filière resolve (else the error screen). Back from it is back-to-filière iff a classe is selected. Classe screen likewise, with its filière or the error screen, and back to the selected filière or the overview. Filière screen iff one is selected. Every other state gives the overview |
| ViewRendering.OfferedStepsStayCoherent | src/components/students/ViewRenderer.tsx:53-140 | Following only the actions the rendered screen offers never selects a classe without a filière |
| ViewRendering.InitialIsCoherent | src/hooks/useNavigationHandlers.ts:6-9 | The initial state is coherent and renders the overview |
| ViewRendering.StudentBackSkipsClasse | src/components/students/ViewRenderer.tsx:75 | Back from a student never shows the classe screen: it shows the selected filière when a classe was selected, else the overview |
| ViewRendering.ClasseBackTarget | src/components/students/ViewRenderer.tsx:103 | Back from a classe re-enters the selected filière, or the overview when none is selected |
| ViewRendering.SubviewDeletesAreGuarded | src/components/students/ViewRenderer.tsx:107-123 | A rendered filière or classe screen passes onDelete its wired kind (classe, resp. student) and never the filière kind; under handleDelete's guard the filière screen's delete is refused exactly when a student of the snapshot is in that classe, and the classe screen's never is |
| ViewRendering.SubviewDelete | src/components/students/ViewRenderer.tsx:107-123 | With onDelete being the hook's handleDelete, a delete from a rendered subview never writes the filières key; from a filière screen it is blocked exactly when the classe has a student in the snapshot and is otherwise the classe cascade; from a classe screen it is never blocked and removes just that student |
| SideMenu.PageAt | src/components/layout/Sidebar.tsx:22-59 | The page a path names, if any; no page has an unknown path |
| SideMenu.FilteredMenuItems | src/components/layout/Sidebar.tsx:61-63 | Exactly the menu items whose roles contain the user's role |
| SideMenu.FilteredMenuKeepsOrder | src/components/layout/Sidebar.tsx:61-63 | … in menu order |
| SideMenu.HandleNavigation | src/components/layout/Sidebar.tsx:65-69 | Navigates, to the item's path, iff the role is among the item's roles |
| SideMenu.MenuReachesRolesFor | src/components/layout/Sidebar.tsx:22-59 | Each page has one menu item, so a role reaches a page iff it is among that item's roles |
| SideMenu.AccessTable | src/components/layout/Sidebar.tsx:22-59 | Dashboard and About for all four roles; Students, Absence admin and Statistics exactly for the three staff roles; Absence entry only for formateur, so no role has both absence pages |
| AppShell.Route | src/App.tsx:70-105 | '/' and '/about' always render. The staff pages render iff the role is admin, directeur or surveillant, and '/absence-entry' iff it is formateur; every other normalised path redirects to '/'. A rendered page is the one at that path |
| AppShell.RoutesAgreeWithMenu | src/App.tsx:70-105 | For every role and page, the route renders exactly when the side menu enables the page |
| AppShell.FindUser | src/App.tsx:37-39 | The first mock user matching both email and role; none iff no user matches |
| AppShell.RoleNamesDiffer | src/App.tsx:23-28 | The four role names are pairwise distinct |
| AppShell.LoginFindsOwnAccount | src/App.tsx:37-39 | Logging in with a mock user's own email and role finds that user |
| AppShell.App.constructor | src/App.tsx:31 | No one is signed in at start |
| AppShell.App.HandleLogin | src/App.tsx:33-52 | With a match, the user becomes the mock user, under the given username when non-empty; with no match, the user is unchanged. The signed-in user stays a mock account with a non-empty username |
| AppShell.App.HandleLogout | src/App.tsx:54-56 | Signs the user out |
| AbsenceSheet.Without | src/components/absence/AbsenceEntry.tsx:75 | Exactly the other ids |
| AbsenceSheet.WithoutKeepsOrder | src/components/absence/AbsenceEntry.tsx:75 | Unchecking keeps the other marks in order |
| AbsenceSheet.AbsenceEntry.constructor | src/components/absence/AbsenceEntry.tsx:15-20 | Empty selections, no students, no marks |
| AbsenceSheet.AbsenceEntry.LoadStudents | src/components/absence/AbsenceEntry.tsx:62-68 | No classe selected gives no students; a selected classe shows the mock list |
| AbsenceSheet.AbsenceEntry.SelectSession | src/components/absence/AbsenceEntry.tsx:148 | Sets the session |
| AbsenceSheet.AbsenceEntry.SelectFiliere | src/components/absence/AbsenceEntry.tsx:164-167 | A new filière clears the classe and hence the student list |
| AbsenceSheet.AbsenceEntry.SelectClasse | src/components/absence/AbsenceEntry.tsx:62-68 | Sets the classe; the students follow it |
| AbsenceSheet.AbsenceEntry.HandleAbsentChange | src/components/absence/AbsenceEntry.tsx:70-77 | Checking appends the id to the absent list and removes it from the late list; unchecking removes only that id from the absent list and leaves the late list. No id is ever in both |
| AbsenceSheet.AbsenceEntry.HandleLateChange | src/components/absence/AbsenceEntry.tsx:79-86 | The mirror image, preserving the same invariant |
| AbsenceSheet.AbsenceEntry.Record | src/components/absence/AbsenceEntry.tsx:99-107 | The stored record carries the three selections, both lists, formateur = the username, and the timestamp |
| AbsenceSheet.AbsenceEntry.HandleSubmit | src/components/absence/AbsenceEntry.tsx:88-121 | An empty selection writes nothing and keeps both lists. Otherwise exactly one record is appended to the 'absences' array and both lists are cleared; unparsable data throws before anything changes |
| AbsenceSheet.SubmitEnabled | src/components/absence/AbsenceEntry.tsx:289 | Enabled iff some student is marked |
| AbsenceAdministration.FilterAbsences | src/components/absence/AbsenceAdmin.tsx:48-57 | 'pending' keeps exactly the unvalidated records, 'validated' exactly the validated ones, 'all' every record |
| AbsenceAdministration.Insert | src/components/absence/AbsenceAdmin.tsx:58 | One insertion step of the sort keeps the multiset and the newest-first order |
| AbsenceAdministration.SortNewestFirst | src/components/absence/AbsenceAdmin.tsx:58 | A permutation of its input, newest first by createdAt |
| AbsenceAdministration.NewestFirstPairwise | src/components/absence/AbsenceAdmin.tsx:58 | In a newest-first list every earlier record is at least as recent as every later one |
| AbsenceAdministration.FilteredAbsences | src/components/absence/AbsenceAdmin.tsx:48-58 | The records passing the filter, each kept as often as it occurs, newest first |
| AbsenceAdministration.CountsAddUp | src/components/absence/AbsenceAdmin.tsx:60-61 | pendingCount + validatedCount = the number of absences |
| AbsenceAdministration.VisibleRows | src/components/absence/AbsenceAdmin.tsx:157-159 | A record is drawn iff its student resolves, and the drawn rows keep the order of the filtered list |
| AbsenceAdministration.KeepNewestFirst | src/components/absence/AbsenceAdmin.tsx:58 | Filtering a newest-first list leaves it newest first |
| AbsenceAdministration.VisibleRowsNewestFirst | src/components/absence/AbsenceAdmin.tsx:157-159 | Skipping rows whose student does not resolve keeps newest-first rows newest first |
| AbsenceAdministration.ValiderOnPendingRowsOnly | src/components/absence/AbsenceAdmin.tsx:204 | Valider is offered on every row of the pending view and on no row of the validated view |
| AbsenceAdministration.AbsenceAdmin.constructor | src/components/absence/AbsenceAdmin.tsx:10-16 | Empty snapshots and the 'pending' filter |
| AbsenceAdministration.AbsenceAdmin.SetFilter | src/components/absence/AbsenceAdmin.tsx:16 | Sets the filter |
| AbsenceAdministration.AbsenceAdmin.Rows | src/components/absence/AbsenceAdmin.tsx:48-61 | The drawn rows are exactly the snapshot's records that pass the filter and whose student resolves, drawn newest first |
| AbsenceAdministration.AbsenceAdmin.LoadData | src/components/absence/AbsenceAdmin.tsx:20-25 | The four snapshots become the stored lists, unless a read throws |
| AbsenceAdministration.AbsenceAdmin.HandleValidateAbsence | src/components/absence/AbsenceAdmin.tsx:27-36 | Validates as 'Surveillant' whoever is signed in, and reloads only when the record was found |
| FormDialogModel.InitialFormData | src/components/students/FormDialog.tsx:34-42 | The edited item when there is one; otherwise `{statut: 'actif'}` for a student and `{}` for the other kinds |
| FormDialogModel.Validate | src/components/students/FormDialog.tsx:48-59 | A form passes iff every required field of its kind is non-empty: code and nom; nom, filiereId and niveau; nom, prenom, email, classeId and sexe |
| FormDialogModel.Submit | src/components/students/FormDialog.tsx:44-77 | A rejected form calls no save. Otherwise the save of the dialog's kind gets the form and editingItem, and the dialog closes iff it returns true |
| FormDialogModel.FreshFormIsRejected | src/components/students/FormDialog.tsx:34-59 | An untouched new form is always rejected |
| FormDialogModel.AddClasseFormSubmits | src/components/students/FormDialog.tsx:34-59 | The add-classe-to-filière form passes once nom and niveau are filled, and submits with the `{ filiereId }` item |
| Queries.ClassesOfFiliere | src/components/students/FiliereView.tsx:20 | Exactly the classes with that filiereId |
| Queries.StudentsOfClasse | src/components/students/ClasseView.tsx:36 | Exactly the students with that classeId |
| Queries.FindClasse | src/components/students/ViewRenderer.tsx:55 | A classe with the id, in the list; none iff no classe has it |
| Queries.FindFiliere | src/components/students/ViewRenderer.tsx:56 | The same, for filières |
| Queries.FindStudent | src/components/absence/AbsenceAdmin.tsx:39-41 | The same, for students |
| Queries.StudentsOfClasses | src/utils/studentStorage.ts:97-100 | Exactly the students whose classeId names one of the classes |
| Queries.FiliereStudents | src/components/students/FiliereView.tsx:21-24 | Exactly the students whose classeId names a classe of the filière |
| Queries.EmptySearchMatchesAll | src/components/students/StudentOverview.tsx:35-37 | The empty term matches every student |
| Queries.FindClasseUnique | src/components/students/StudentOverview.tsx:39 | With distinct classe ids, find returns the one classe with the id |
| Overview.FilteredStudents | src/components/students/StudentOverview.tsx:34-42 | Under 'all', exactly the search matches. Under a filière, the matches whose classe exists and belongs to that filière |
| Overview.FilteredStudentsKeepOrder | src/components/students/StudentOverview.tsx:34-42 | The matches keep their stored order |
| Overview.EmptySearchListsEveryone | src/components/students/StudentOverview.tsx:34-42 | The empty term under 'all' lists every student |
| Overview.FiliereFilterAgreesWithCard | src/components/students/StudentOverview.tsx:38-41 | With distinct classe ids, the filière filter lists exactly the students its card counts |
| Overview.FilteredFilieres | src/components/students/StudentOverview.tsx:45-48 | Exactly the filières whose nom or code contains the term, ignoring case |
| Overview.DisplayedFilieres | src/components/students/StudentOverview.tsx:159 | All filières for the empty term, the filtered ones otherwise |
| Overview.DisplayedIsFiltered | src/components/students/StudentOverview.tsx:159 | The choice is immaterial: the cards drawn are always the filtered list |
| Overview.Card | src/components/students/StudentOverview.tsx:160-164 | The card's counts: the filière's classes, and the students whose classe is one of them; neither exceeds its collection |
| Overview.FoundSectionShown | src/components/students/StudentOverview.tsx:251 | The found-students section shows iff the term is non-empty and some student matches |
| ClasseScreen.ClasseStudents | src/components/students/ClasseView.tsx:36 | Exactly the students with classeId = classe.id |
| ClasseScreen.FilteredClasseStudents | src/components/students/ClasseView.tsx:37-41 | Exactly the classe's students matching the term |
| ClasseScreen.SearchNarrowsClasse | src/components/students/ClasseView.tsx:37-41 | The search result is an order-preserving subsequence of the classe's students |
| ClasseScreen.FieldsToAdd | src/components/students/ClasseView.tsx:51-54 | The added fields are the form's, with classeId forced to the classe's id |
| ClasseScreen.ClasseView.constructor | src/components/students/ClasseView.tsx:24-34 | No search, dialog closed, empty form with statut 'actif' |
| ClasseScreen.ClasseView.Listed | src/components/students/ClasseView.tsx:37-41 | A student is listed iff it belongs to the classe and matches the current term |
| ClasseScreen.ClasseView.SetSearchTerm | src/components/students/ClasseView.tsx:24 | Sets the term |
| ClasseScreen.ClasseView.OpenAddDialog | src/components/students/ClasseView.tsx:83 | Opens the add dialog |
| ClasseScreen.ClasseView.SetForm | src/components/students/ClasseView.tsx:26-34 | Sets the form |
| ClasseScreen.ClasseView.HandleSubmit | src/components/students/ClasseView.tsx:43-68 | An incomplete form (nom, prenom, email or sexe empty) adds nobody and changes nothing. Otherwise it hands over the form with this classe's id, then resets the form and closes the dialog |
| ClasseScreen.AddedStudentIsListed | src/components/students/ClasseView.tsx:51-54 | Once stored, a student added from the classe screen is listed on that screen |
| FiliereScreen.ClassCounts | src/components/students/FiliereView.tsx:83 | One count per classe shown: its number of students |
| FiliereScreen.OccurrencesDistinct | src/components/students/FiliereView.tsx:21-24 | With distinct ids, each classe id occurs once or not at all |
| FiliereScreen.CountsSplit | src/components/students/FiliereView.tsx:83 | Each student adds one to the count of every classe carrying its classeId |
| FiliereScreen.CountsOfNobody | src/components/students/FiliereView.tsx:83 | With no students, every count is zero |
| FiliereScreen.SumIsStudentsOfClasses | src/components/students/FiliereView.tsx:21-24 | With distinct ids, the counts sum to the number of students in those classes |
| FiliereScreen.CountsAddUpToTotal | src/components/students/FiliereView.tsx:21-24 | With distinct ids, the per-classe counts sum to the student total in the header |
| FiliereScreen.DuplicateIdsOvercount | src/components/students/FiliereView.tsx:83 | Without distinct ids this fails: two classes sharing an id count one student twice |
| FiliereScreen.Buttons | src/components/students/FiliereView.tsx:37-89 | Add-classe shows iff the callback is supplied. A delete button shows on exactly the filière's classes iff its callback is supplied, and on none otherwise |

## Left out

- JSON serialisation, storage quotas and the `localStorage` API itself. Each key is a slot holding a list, or unparsable text.
- **Payload conversion.**
  - `StudentDataHook.FilieresAfterSave`, `ClassesAfterSave` and `StudentsAfterSave` store a missing form field as the empty string. The source stores it as `undefined`.
  - Form values are strings. Non-string properties in a payload are not modelled.
- **Timing and identity.** Date parsing (`timeOf`), NaN dates, and `Date.now()` id collisions are not modelled: ids and timestamps are inputs.
- **The React reload cycle.** The `refreshKey`/`useEffect` cycle is modelled as the counter plus `StudentData.Reload`, which the caller runs. Re-render scheduling and toasts, `console` output and `alert` are left out.
- **Hook instances.**
  - Each `useStudentData` instance, including the one inside the dialog hook, has its own snapshots.
  - The model keeps them separate. The delete guard reads its own instance's snapshot, which may lag the store.
- **The component that wires `useNavigationHandlers`, `useDialogHandlers`, `ViewRenderer` and `FormDialog` together** is not part of this model; none of the modelled files mounts them (src/App.tsx mounts the mock StudentManagement page). The model assumes the natural wiring: FormDialog's `editingItem` is the dialog hook's, its `onSaveClasse` is the hook's `handleSaveClasseWithClose`, and ViewRenderer's `onDelete` is `useStudentData`'s `handleDelete` (`ViewRendering.SubviewDelete`). `ClasseScreen.ClasseView.HandleSubmit` returns the fields it would give to onAddStudent.
- **Pages modelled elsewhere or not at all.** The '/students' route renders a mock page (src/components/students/StudentManagement.tsx), which is not part of this model. Also left out: the dashboard, statistics and about pages, the login form, and the clock.
- **The side menu.** It draws every item and disables the inaccessible ones. `filteredMenuItems` is computed but not used for drawing. The model states both.
- **Absence entry sheet.**
  - Its students are a fixed mock list. The `isBlocked` flag only hides a checkbox in the view, which the model does not draw, so the handlers accept any id.
  - The sheet keeps its marks when the filière or classe changes, as the code does.
- **Absence administration.** Only the 'Surveillant' validation exists. There is no justify or un-validate operation in the code.
- `AppShell.Route`: `path` is taken to be the normalised pathname (lower-cased, trailing slashes removed). React Router's own matching is not modelled: it ignores case and accepts a trailing slash, so '/Students' or '/students/' render the Students page for staff and '/About' renders About, where the model, given those strings unnormalised, redirects to '/'. The role gates are unaffected.
- `Common.Lower`: lower-casing is ASCII-only. JavaScript's `toLowerCase` also folds accented capitals such as É, À and Ç, so in the source the search term "hélène" finds a student named "HÉLÈNE", and in the model it does not. This affects `Queries.MatchesSearch`, `Overview.FiliereMatches` and every search built on them.
- `AbsenceAdministration.SortNewestFirst`: proved to be a newest-first permutation. It is not proved stable, unlike `Array.prototype.sort`, so the order of equal timestamps is not stated.
- `StudentDataHook.DeleteRefused`: checks the hook's snapshot, as the source does. It says nothing about records added to the store after the snapshot was taken.

## Findings

| source | as written | input that shows it | evidently intended | confidence | as-written member | corrected member |
|---|---|---|---|---|---|---|
| src/hooks/useDialogHandlers.ts:29-34 with src/hooks/useStudentData.ts:61-62 | The add-classe-to-filière dialog sets editingItem to `{ filiereId }`. The classe save treats any editingItem as an edit, so it calls updateClasse with an undefined id, which matches nothing. No classe is added, yet the save returns true and the dialog closes | Under the assumed wiring (FormDialog's editingItem and onSaveClasse taken from useDialogHandlers; the composing component is not among the modelled files): open "Ajouter Classe" on any filière, fill nom and niveau, save: the classes key is unchanged | An item without an id is a prefill, so the save adds a classe owned by that filière | high (not executed) | StudentDataHook.AddClasseToFiliereSaveIsLost | StudentDataHook.IntendedClassesAfterSave |

=== FILE: absence_admin.dfy ===
/** The validation screen (src/components/absence/AbsenceAdmin.tsx): the
    status filter, the newest-first order, the two counters, and the
    validate action. */
module AbsenceAdministration {
  import opened Common
  import opened Entities
  import opened Storage
  import opened Queries
  import opened StudentStorage

  datatype StatusFilter = All | Pending | ValidatedOnly

  function PassesFilter(a: Absence, filter: StatusFilter): bool {
    match filter
    case Pending => !a.validated
    case ValidatedOnly => a.validated
    case All => true
  }

  /** The filter step of lines 48-57. */
  function FilterAbsences(absences: seq<Absence>, filter: StatusFilter): (r: seq<Absence>)
    ensures filter == Pending ==> forall a :: a in r <==> a in absences && !a.validated
    ensures filter == ValidatedOnly ==> forall a :: a in r <==> a in absences && a.validated
    ensures filter == All ==> r == absences
  {
    if filter == All then
      KeepAll(absences, (a: Absence) => PassesFilter(a, filter));
      Keep(absences, (a: Absence) => PassesFilter(a, filter))
    else Keep(absences, (a: Absence) => PassesFilter(a, filter))
  }

  /** Newest first by createdAt; `timeOf` stands for
      `new Date(createdAt).getTime()`. */
  ghost predicate NewestFirst(xs: seq<Absence>, timeOf: string -> int) {
    forall i :: 0 < i < |xs| ==> timeOf(xs[i - 1].createdAt) >= timeOf(xs[i].createdAt)
  }

  /** Puts a before the first record that is not newer than it. */
  function Insert(a: Absence, ys: seq<Absence>, timeOf: string -> int): (r: seq<Absence>)
    ensures |r| == |ys| + 1
    ensures multiset(r) == multiset(ys) + multiset{a}
    ensures r[0] == a || (ys != [] && r[0] == ys[0])
    ensures NewestFirst(ys, timeOf) ==> NewestFirst(r, timeOf)
  {
    if ys == [] || timeOf(ys[0].createdAt) <= timeOf(a.createdAt) then [a] + ys
    else
      var rest := Insert(a, ys[1..], timeOf);
      assert ys == [ys[0]] + ys[1..];
      [ys[0]] + rest
  }

  /** `.sort((a, b) => time(b) - time(a))` as an insertion sort. */
  function SortNewestFirst(xs: seq<Absence>, timeOf: string -> int): (r: seq<Absence>)
    ensures multiset(r) == multiset(xs)
    ensures NewestFirst(r, timeOf)
  {
    if xs == [] then []
    else
      assert xs == [xs[0]] + xs[1..];
      Insert(xs[0], SortNewestFirst(xs[1..], timeOf), timeOf)
  }

  /** Adjacent order gives the order of any two positions. */
  lemma {:induction false} NewestFirstPairwise(xs: seq<Absence>, timeOf: string -> int, i: int, j: int)
    requires NewestFirst(xs, timeOf)
    requires 0 <= i <= j < |xs|
    ensures timeOf(xs[i].createdAt) >= timeOf(xs[j].createdAt)
    decreases j - i
  {
    if i < j {
      NewestFirstPairwise(xs, timeOf, i, j - 1);
    }
  }

  /** filteredAbsences: the records passing the filter, newest first. */
  function FilteredAbsences(absences: seq<Absence>, filter: StatusFilter, timeOf: string -> int): (r: seq<Absence>)
    ensures multiset(r) == multiset(FilterAbsences(absences, filter))
    ensures forall a :: a in r <==> a in absences && PassesFilter(a, filter)
    ensures NewestFirst(r, timeOf)
  {
    var kept := FilterAbsences(absences, filter);
    var r := SortNewestFirst(kept, timeOf);
    assert forall a :: a in r <==> a in multiset(r);
    assert forall a :: a in kept <==> a in multiset(kept);
    r
  }

  function PendingCount(absences: seq<Absence>): nat {
    |FilterAbsences(absences, Pending)|
  }

  function ValidatedCount(absences: seq<Absence>): nat {
    |FilterAbsences(absences, ValidatedOnly)|
  }

  /** The two counters of lines 60-61 always add up to the number of
      records. */
  lemma {:induction false} CountsAddUp(absences: seq<Absence>)
    ensures PendingCount(absences) + ValidatedCount(absences) == |absences|
  {
    if absences != [] {
      CountsAddUp(absences[1..]);
    }
  }

  /** getStudentInfo(...) is not null: the row is drawn (lines 158-159). */
  predicate RowShown(a: Absence, students: seq<Student>) {
    FindStudent(students, a.studentId).Some?
  }

  /** Dropping records keeps a newest-first list newest first. */
  lemma {:induction false} KeepNewestFirst(xs: seq<Absence>, p: Absence -> bool, timeOf: string -> int)
    requires NewestFirst(xs, timeOf)
    ensures NewestFirst(Keep(xs, p), timeOf)
  {
    if xs != [] {
      var rest := Keep(xs[1..], p);
      KeepNewestFirst(xs[1..], p, timeOf);
      if p(xs[0]) && rest != [] {
        assert rest[0] in xs[1..];
        var j :| 0 <= j < |xs[1..]| && xs[1..][j] == rest[0];
        NewestFirstPairwise(xs, timeOf, 0, j + 1);
      }
    }
  }

  /** The rows actually drawn, in the order of `filtered`: records whose
      student is unknown are skipped. */
  function VisibleRows(filtered: seq<Absence>, students: seq<Student>): (r: seq<Absence>)
    ensures forall a :: a in r <==> a in filtered && exists s :: s in students && s.id == a.studentId
    ensures IsSubsequence(r, filtered)
  {
    KeepIsSubsequence(filtered, (a: Absence) => RowShown(a, students));
    Keep(filtered, (a: Absence) => RowShown(a, students))
  }

  /** Skipping rows keeps newest-first rows newest first. */
  lemma VisibleRowsNewestFirst(filtered: seq<Absence>, students: seq<Student>, timeOf: string -> int)
    requires NewestFirst(filtered, timeOf)
    ensures NewestFirst(VisibleRows(filtered, students), timeOf)
  {
    KeepNewestFirst(filtered, (a: Absence) => RowShown(a, students), timeOf);
  }

  /** The Valider button (line 204) is drawn only on pending records. */
  predicate ValiderOffered(a: Absence) {
    !a.validated
  }

  /** Under the default filter every drawn row offers Valider; under
      'validated' none does. */
  lemma ValiderOnPendingRowsOnly(absences: seq<Absence>, students: seq<Student>, timeOf: string -> int)
    ensures forall a :: a in VisibleRows(FilteredAbsences(absences, Pending, timeOf), students) ==> ValiderOffered(a)
    ensures forall a :: a in VisibleRows(FilteredAbsences(absences, ValidatedOnly, timeOf), students) ==> !ValiderOffered(a)
  {
  }

  class AbsenceAdmin {
    const storage: LocalStorage
    var absences: seq<Absence>
    var students: seq<Student>
    var classes: seq<Classe>
    var filieres: seq<Filiere>
    var filter: StatusFilter

    constructor (storage: LocalStorage)
      ensures this.storage == storage
      ensures absences == [] && students == [] && classes == [] && filieres == []
      ensures filter == Pending
    {
      this.storage := storage;
      absences, students, classes, filieres := [], [], [], [];
      filter := Pending;
    }

    /** The filter buttons. */
    method SetFilter(f: StatusFilter)
      modifies this`filter
      ensures filter == f
    {
      filter := f;
    }

    /** The rows drawn for the current filter. */
    function Rows(timeOf: string -> int): (r: seq<Absence>)
      reads this
      ensures forall a :: a in r <==> a in absences && PassesFilter(a, filter) && exists s :: s in students && s.id == a.studentId
      ensures NewestFirst(r, timeOf)
    {
      VisibleRowsNewestFirst(FilteredAbsences(absences, filter, timeOf), students, timeOf);
      VisibleRows(FilteredAbsences(absences, filter, timeOf), students)
    }

    /** loadData (lines 20-25): absences, students, classes, filières in
        turn; each snapshot is set as soon as it is read, so a read that
        throws leaves the earlier ones refreshed. */
    method LoadData() returns (r: Result<()>)
      modifies this`absences, this`students, this`classes, this`filieres
      ensures r.Ok? <==> !storage.absences.Unparsable? && !storage.students.Unparsable?
                         && !storage.classes.Unparsable? && !storage.filieres.Unparsable?
      ensures r.Ok? ==> absences == Load(storage.absences).value && students == Load(storage.students).value
                        && classes == Load(storage.classes).value && filieres == Load(storage.filieres).value
    {
      var a := GetAbsences(storage);
      if a.Thrown? {
        return Thrown;
      }
      absences := a.value;
      var s := GetStudents(storage);
      if s.Thrown? {
        return Thrown;
      }
      students := s.value;
      var c := GetClasses(storage);
      if c.Thrown? {
        return Thrown;
      }
      classes := c.value;
      var f := GetFilieres(storage);
      if f.Thrown? {
        return Thrown;
      }
      filieres := f.value;
      return Ok(());
    }

    /** handleValidateAbsence (lines 27-36): validates as 'Surveillant',
        whoever is signed in, and reloads when a record was found. */
    method HandleValidateAbsence(absenceId: string, now: string) returns (r: Result<bool>)
      modifies storage`absences, this`absences, this`students, this`classes, this`filieres
      ensures storage.absences == Updated(old(storage.absences), AbsenceId, Some(absenceId), MarkValidated, Validation("Surveillant", now))
      ensures r.Ok? && r.value ==> !storage.absences.Unparsable? && absences == Load(storage.absences).value
      ensures r.Ok? && !r.value ==> absences == old(absences) && storage.absences == old(storage.absences)
      ensures old(storage.absences).Unparsable? ==> r.Thrown?
    {
      var validated := ValidateAbsence(storage, absenceId, "Surveillant", now);
      if validated.Thrown? {
        return Thrown;
      }
      if validated.value.None? {
        return Ok(false);
      }
      var loaded := LoadData();
      if loaded.Thrown? {
        return Thrown;
      }
      return Ok(true);
    }
  }
}

=== FILE: absence_entry.dfy ===
/** The formateur's absence sheet (src/components/absence/AbsenceEntry.tsx):
    three selections, two lists of marked student ids that exclude each
    other, and a submit that appends one record to the 'absences' key. */
module AbsenceSheet {
  import opened Common
  import opened Entities
  import opened Storage
  import opened StudentStorage

  datatype SheetStudent = SheetStudent(
    id: string, nom: string, email: string, sexe: string,
    hasAuthorization: bool, wasAbsentLastSession: bool, isBlocked: bool)

  /** mockStudents (lines 52-59): every classe shows these five. */
  const MockStudents: seq<SheetStudent> := [
    SheetStudent("1", "Ahmed Benali", "ahmed.benali@email.com", "M", false, false, false),
    SheetStudent("2", "Fatima Zahra", "fatima.zahra@email.com", "F", true, false, false),
    SheetStudent("3", "Mohammed Alami", "mohammed.alami@email.com", "M", false, true, false),
    SheetStudent("4", "Aicha Bennani", "aicha.bennani@email.com", "F", false, false, true),
    SheetStudent("5", "Youssef Idrissi", "youssef.idrissi@email.com", "M", false, false, false)
  ]

  /** `ids.filter(id => id !== studentId)` */
  function Without(ids: seq<string>, studentId: string): (r: seq<string>)
    ensures forall x :: x in r <==> x in ids && x != studentId
  {
    Keep(ids, (x: string) => x != studentId)
  }

  /** Unchecking keeps the other marks in their order. */
  lemma WithoutKeepsOrder(ids: seq<string>, studentId: string)
    ensures IsSubsequence(Without(ids, studentId), ids)
  {
    KeepIsSubsequence(ids, (x: string) => x != studentId);
  }

  /** No id is marked both absent and late. */
  predicate Disjoint(absent: seq<string>, late: seq<string>) {
    forall x :: x in absent ==> x !in late
  }

  datatype SubmitOutcome = MissingSelection | Recorded | Threw

  class AbsenceEntry {
    const storage: LocalStorage
    /** user.username of the signed-in formateur. */
    const username: string
    var selectedSession: string
    var selectedFiliere: string
    var selectedClasse: string
    var students: seq<SheetStudent>
    var absentStudents: seq<string>
    var lateStudents: seq<string>

    predicate Valid()
      reads this
    {
      Disjoint(absentStudents, lateStudents)
    }

    constructor (storage: LocalStorage, username: string)
      ensures this.storage == storage && this.username == username
      ensures selectedSession == "" && selectedFiliere == "" && selectedClasse == ""
      ensures students == [] && absentStudents == [] && lateStudents == []
      ensures Valid()
    {
      this.storage := storage;
      this.username := username;
      selectedSession, selectedFiliere, selectedClasse := "", "", "";
      students := [];
      absentStudents, lateStudents := [], [];
    }

    /** The effect of lines 62-68, run whenever the classe changes: the
        sheet lists the students only while a classe is selected. */
    method LoadStudents()
      modifies this`students
      ensures selectedClasse == "" ==> students == []
      ensures selectedClasse != "" ==> students == MockStudents
    {
      if selectedClasse != "" {
        students := MockStudents;
      } else {
        students := [];
      }
    }

    method SelectSession(value: string)
      modifies this`selectedSession
      ensures selectedSession == value
    {
      selectedSession := value;
    }

    /** Choosing a filière clears the classe (lines 164-167), and so the
        student list; the marks are kept. */
    method SelectFiliere(value: string)
      modifies this`selectedFiliere, this`selectedClasse, this`students
      ensures selectedFiliere == value && selectedClasse == "" && students == []
    {
      selectedFiliere := value;
      selectedClasse := "";
      LoadStudents();
    }

    method SelectClasse(value: string)
      modifies this`selectedClasse, this`students
      ensures selectedClasse == value
      ensures value == "" ==> students == []
      ensures value != "" ==> students == MockStudents
    {
      selectedClasse := value;
      LoadStudents();
    }

    /** handleAbsentChange (lines 70-77). */
    method HandleAbsentChange(studentId: string, checked: bool)
      modifies this`absentStudents, this`lateStudents
      requires Valid()
      ensures Valid()
      ensures checked ==> absentStudents == old(absentStudents) + [studentId]
                          && lateStudents == Without(old(lateStudents), studentId)
      ensures !checked ==> absentStudents == Without(old(absentStudents), studentId)
                           && lateStudents == old(lateStudents)
    {
      if checked {
        absentStudents := absentStudents + [studentId];
        lateStudents := Without(lateStudents, studentId);
      } else {
        absentStudents := Without(absentStudents, studentId);
      }
    }

    /** handleLateChange (lines 79-86), the mirror image. */
    method HandleLateChange(studentId: string, checked: bool)
      modifies this`absentStudents, this`lateStudents
      requires Valid()
      ensures Valid()
      ensures checked ==> lateStudents == old(lateStudents) + [studentId]
                          && absentStudents == Without(old(absentStudents), studentId)
      ensures !checked ==> lateStudents == Without(old(lateStudents), studentId)
                           && absentStudents == old(absentStudents)
    {
      if checked {
        lateStudents := lateStudents + [studentId];
        absentStudents := Without(absentStudents, studentId);
      } else {
        lateStudents := Without(lateStudents, studentId);
      }
    }

    /** The record a submit stores (lines 99-107). */
    function Record(now: string): (r: SessionRecord)
      reads this
      ensures r.absentStudents == absentStudents && r.lateStudents == lateStudents
      ensures r.formateur == username && r.timestamp == now
      ensures r.session == selectedSession && r.filiere == selectedFiliere && r.classe == selectedClasse
    {
      SessionRecord(selectedSession, selectedFiliere, selectedClasse, absentStudents, lateStudents, username, now)
    }

    /** handleSubmit (lines 88-121): refused while a selection is empty;
        otherwise read the 'absences' array, push the record, write it back
        and clear both lists. An unparsable array throws before anything
        changes. */
    method HandleSubmit(now: string) returns (outcome: SubmitOutcome)
      modifies storage`sessionLog, this`absentStudents, this`lateStudents
      requires Valid()
      ensures Valid()
      ensures outcome == MissingSelection <==> selectedSession == "" || selectedFiliere == "" || selectedClasse == ""
      ensures outcome == Threw <==> outcome != MissingSelection && old(storage.sessionLog).Unparsable?
      ensures outcome != Recorded ==>
        storage.sessionLog == old(storage.sessionLog)
        && absentStudents == old(absentStudents) && lateStudents == old(lateStudents)
      ensures outcome == Recorded ==>
        storage.sessionLog == Appended(old(storage.sessionLog), old(Record(now)))
        && absentStudents == [] && lateStudents == []
    {
      if selectedSession == "" || selectedFiliere == "" || selectedClasse == "" {
        return MissingSelection;
      }
      var absenceData := Record(now);
      var existing := Load(storage.sessionLog);
      if existing.Thrown? {
        return Threw;
      }
      var existingData := existing.value + [absenceData];
      storage.sessionLog := Stored(existingData);
      absentStudents := [];
      lateStudents := [];
      return Recorded;
    }
  }

  /** The submit button is enabled only when something is marked (line 289). */
  function SubmitEnabled(absent: seq<string>, late: seq<string>): (r: bool)
    ensures r <==> exists x :: x in absent || x in late
  {
    var some := |absent| > 0 || |late| > 0;
    assert |absent| > 0 ==> absent[0] in absent;
    assert |late| > 0 ==> late[0] in late;
    some
  }
}

=== FILE: app.dfy ===
/** The application shell (src/App.tsx): the route table with its role
    guards, and the demo login against four built-in users. */
module AppShell {
  import opened Common
  import opened Entities
  import opened SideMenu

  datatype RouteResult = RenderPage(page: Page) | RedirectHome

  /** `['admin', 'directeur', 'surveillant'].includes(user.role)` */
  predicate IsStaff(role: Role) {
    role in [Admin, Directeur, Surveillant]
  }

  /** The <Routes> of lines 70-105 for a signed-in user. `path` is the
      normalised pathname: lower-cased, with no trailing slash. */
  function Route(role: Role, path: string): (r: RouteResult)
    ensures r.RenderPage? ==> PathOf(r.page) == path
    ensures path == "/" || path == "/about" ==> r.RenderPage?
    ensures PageAt(path).None? ==> r == RedirectHome
    ensures PageAt(path) == Some(AbsenceEntry) ==> (r.RenderPage? <==> role == Formateur)
    ensures PageAt(path) in {Some(Students), Some(AbsenceAdmin), Some(Statistics)} ==> (r.RenderPage? <==> IsStaff(role))
  {
    if path == "/" then RenderPage(Home)
    else if path == "/students" then (if IsStaff(role) then RenderPage(Students) else RedirectHome)
    else if path == "/absence-entry" then (if role == Formateur then RenderPage(AbsenceEntry) else RedirectHome)
    else if path == "/absence-admin" then (if IsStaff(role) then RenderPage(AbsenceAdmin) else RedirectHome)
    else if path == "/statistics" then (if IsStaff(role) then RenderPage(Statistics) else RedirectHome)
    else if path == "/about" then RenderPage(About)
    else RedirectHome
  }

  /** The route guards and the side menu's role table agree for every role
      and page: a page renders exactly when its menu item is enabled. */
  lemma RoutesAgreeWithMenu(role: Role, page: Page)
    ensures Route(role, PathOf(page)).RenderPage? <==> MenuReaches(role, page)
  {
    MenuReachesRolesFor(role, page);
  }

  datatype User = User(id: string, username: string, fullName: string, role: Role, email: string)

  /** mockUsers (lines 23-28). */
  const MockUsers: seq<User> := [
    User("1", "admin", "Mohammed Alami", Admin, "admin@cfm.ofppt.ma"),
    User("2", "directeur", "Fatima Benali", Directeur, "directeur@cfm.ofppt.ma"),
    User("3", "surveillant", "Youssef Idrissi", Surveillant, "surveillant@cfm.ofppt.ma"),
    User("4", "formateur", "Aicha Zahra", Formateur, "formateur@cfm.ofppt.ma")
  ]

  /** `u.email === userData.email && u.role === userData.role` */
  predicate Matches(u: User, userData: Bag) {
    Lookup(userData, "email") == Some(u.email) && Lookup(userData, "role") == Some(RoleName(u.role))
  }

  /** `users.find(...)`: the first user matching the login data. */
  function FindUser(users: seq<User>, userData: Bag): (r: Option<User>)
    ensures r.None? <==> forall u :: u in users ==> !Matches(u, userData)
    ensures r.Some? ==> r.value in users && Matches(r.value, userData)
  {
    if users == [] then None
    else if Matches(users[0], userData) then Some(users[0])
    else FindUser(users[1..], userData)
  }

  /** The signed-in user: a mock user, possibly under another username. */
  predicate IsMockAccount(u: User) {
    exists m :: m in MockUsers && u == m.(username := u.username)
  }

  class App {
    var user: Option<User>

    /** Signed-in users are mock accounts with a non-empty username. */
    predicate Valid()
      reads this
    {
      user.Some? ==> IsMockAccount(user.value) && user.value.username != ""
    }

    constructor ()
      ensures user.None? && Valid()
    {
      user := None;
    }

    /** handleLogin (lines 33-52): on a match, the user becomes the mock
        user, with the given username when it is non-empty; otherwise
        nothing changes. */
    method HandleLogin(userData: Bag)
      modifies this
      requires Valid()
      ensures Valid()
      ensures FindUser(MockUsers, userData).None? ==> user == old(user)
      ensures FindUser(MockUsers, userData).Some? ==>
        var found := FindUser(MockUsers, userData).value;
        user == Some(found.(username := if Filled(userData, "username") then userData["username"] else found.username))
    {
      var foundUser := FindUser(MockUsers, userData);
      if foundUser.Some? {
        var found := foundUser.value;
        var name := if Filled(userData, "username") then userData["username"] else found.username;
        assert found.username != "" by {
          assert found in MockUsers;
        }
        user := Some(found.(username := name));
        assert found.(username := name).(username := found.username) == found;
      }
    }

    /** handleLogout (lines 54-56). */
    method HandleLogout()
      modifies this
      ensures user.None? && Valid()
    {
      user := None;
    }
  }

  lemma RoleNamesDiffer(a: Role, b: Role)
    requires a != b
    ensures RoleName(a) != RoleName(b)
  {
    assert RoleName(a)[0] != RoleName(b)[0] || |RoleName(a)| != |RoleName(b)|;
  }

  /** Signing in with a mock user's own e-mail and role finds that user,
      whatever the other fields say. */
  lemma {:induction false} LoginFindsOwnAccount(i: nat, userData: Bag)
    requires i < |MockUsers|
    requires Lookup(userData, "email") == Some(MockUsers[i].email)
    requires Lookup(userData, "role") == Some(RoleName(MockUsers[i].role))
    ensures FindUser(MockUsers, userData) == Some(MockUsers[i])
  {
    var j := 0;
    while j < i
      invariant 0 <= j <= i
      invariant FindUser(MockUsers, userData) == FindUser(MockUsers[j..], userData)
    {
      RoleNamesDiffer(MockUsers[j].role, MockUsers[i].role);
      assert MockUsers[j..][1..] == MockUsers[j + 1..];
      j := j + 1;
    }
  }
}

=== FILE: classe_view.dfy ===
/** The classe screen (src/components/students/ClasseView.tsx): the classe's
    students with their search, and the inline add-student form, whose
    submit always files the new student under the displayed classe. */
module ClasseScreen {
  import opened Common
  import opened Entities
  import opened Storage
  import opened Queries
  import opened StudentStorage

  /** classeStudents (line 36). */
  function ClasseStudents(students: seq<Student>, classe: Classe): (r: seq<Student>)
    ensures forall s :: s in r <==> s in students && s.classeId == classe.id
  {
    StudentsOfClasse(students, classe.id)
  }

  /** filteredStudents (lines 37-41): the classe's students the term matches. */
  function FilteredClasseStudents(students: seq<Student>, classe: Classe, searchTerm: string): (r: seq<Student>)
    ensures forall s :: s in r <==> s in students && s.classeId == classe.id && MatchesSearch(s, searchTerm)
  {
    Keep(ClasseStudents(students, classe), (s: Student) => MatchesSearch(s, searchTerm))
  }

  /** The search only narrows the classe's list, keeping its order. */
  lemma SearchNarrowsClasse(students: seq<Student>, classe: Classe, searchTerm: string)
    ensures IsSubsequence(FilteredClasseStudents(students, classe, searchTerm), ClasseStudents(students, classe))
  {
    KeepIsSubsequence(ClasseStudents(students, classe), (s: Student) => MatchesSearch(s, searchTerm));
  }

  /** The inline form's seven inputs (lines 26-34). */
  datatype AddForm = AddForm(
    nom: string, prenom: string, email: string, sexe: string,
    dateNaissance: string, telephone: string, statut: string)

  /** The starting and reset content: every input empty, statut 'actif'. */
  const EmptyForm: AddForm := AddForm("", "", "", "", "", "", "actif")

  /** The check of lines 46-49. */
  predicate FormComplete(form: AddForm) {
    form.nom != "" && form.prenom != "" && form.email != "" && form.sexe != ""
  }

  /** `{ ...formData, classeId: classe.id }` (lines 51-54): the fields given to
      onAddStudent. The form has no address input. */
  function FieldsToAdd(form: AddForm, classeId: string): (r: StudentFields)
    ensures r.classeId == classeId
    ensures r.nom == form.nom && r.prenom == form.prenom && r.email == form.email && r.sexe == form.sexe
    ensures r.dateNaissance == form.dateNaissance && r.telephone == Some(form.telephone)
    ensures r.statut == form.statut && r.adresse.None?
  {
    StudentFields(form.nom, form.prenom, form.email, form.sexe, classeId,
                  form.dateNaissance, Some(form.telephone), None, form.statut)
  }

  class ClasseView {
    const classe: Classe
    var searchTerm: string
    var isAddDialogOpen: bool
    var formData: AddForm

    constructor (classe: Classe)
      ensures this.classe == classe
      ensures searchTerm == "" && !isAddDialogOpen && formData == EmptyForm
    {
      this.classe := classe;
      searchTerm := "";
      isAddDialogOpen := false;
      formData := EmptyForm;
    }

    /** The students listed for the current term. */
    function Listed(students: seq<Student>): (r: seq<Student>)
      reads this
      ensures forall s :: s in r <==> s in students && s.classeId == classe.id && MatchesSearch(s, searchTerm)
    {
      FilteredClasseStudents(students, classe, searchTerm)
    }

    method SetSearchTerm(term: string)
      modifies this`searchTerm
      ensures searchTerm == term
    {
      searchTerm := term;
    }

    /** The "Ajouter Stagiaire" buttons (lines 83 and 136). */
    method OpenAddDialog()
      modifies this`isAddDialogOpen
      ensures isAddDialogOpen
    {
      isAddDialogOpen := true;
    }

    /** The inputs' `setFormData`. */
    method SetForm(form: AddForm)
      modifies this`formData
      ensures formData == form
    {
      formData := form;
    }

    /** handleSubmit (lines 43-68): an incomplete form changes nothing and
        adds nobody; a complete one hands the fields, with this classe's id,
        to onAddStudent, then resets the form and closes the dialog. */
    method HandleSubmit() returns (added: Option<StudentFields>)
      modifies this`formData, this`isAddDialogOpen
      ensures !FormComplete(old(formData)) ==>
        added.None? && formData == old(formData) && isAddDialogOpen == old(isAddDialogOpen)
      ensures FormComplete(old(formData)) ==>
        added == Some(FieldsToAdd(old(formData), classe.id)) && formData == EmptyForm && !isAddDialogOpen
    {
      if !FormComplete(formData) {
        return None;
      }
      added := Some(FieldsToAdd(formData, classe.id));
      formData := EmptyForm;
      isAddDialogOpen := false;
    }
  }

  /** A student added from this screen appears, once stored, in the screen's
      own list with the empty term, whatever class ids the form could have
      suggested. */
  lemma AddedStudentIsListed(s: Slot<Student>, form: AddForm, classe: Classe, id: string, now: string)
    requires !s.Unparsable?
    ensures var st := NewStudent(FieldsToAdd(form, classe.id), id, now);
      var after := Load(Appended(s, st)).value;
      st in ClasseStudents(after, classe) && st in FilteredClasseStudents(after, classe, "")
  {
    var st := NewStudent(FieldsToAdd(form, classe.id), id, now);
    var before := Load(s).value;
    AppendedKeepsPrefix(s, st);
    var after := Load(Appended(s, st)).value;
    assert after[|before|] == st;
    EmptySearchMatchesAll(st);
  }
}

=== FILE: common.dfy ===
/** Sequence and string helpers standing for the JavaScript built-ins the
    application relies on: Array.prototype.filter, findIndex and find,
    String.prototype.toLowerCase and includes. */
module Common {

  datatype Option<T> = None | Some(value: T) {
    function GetOr(default: T): T {
      if Some? then value else default
    }
  }

  /** Array.prototype.filter: the elements satisfying p, in their original order. */
  function Keep<T(!new)>(xs: seq<T>, p: T -> bool): (r: seq<T>)
    ensures |r| <= |xs|
    ensures forall x :: x in r <==> x in xs && p(x)
    ensures forall i :: 0 <= i < |r| ==> p(r[i])
  {
    if xs == [] then []
    else if p(xs[0]) then [xs[0]] + Keep(xs[1..], p)
    else Keep(xs[1..], p)
  }

  /** a is obtained from b by deleting elements: order is preserved. */
  ghost predicate IsSubsequence<T>(a: seq<T>, b: seq<T>)
    decreases |b|
  {
    if a == [] then true
    else if b == [] then false
    else (a[0] == b[0] && IsSubsequence(a[1..], b[1..])) || IsSubsequence(a, b[1..])
  }

  /** filter never reorders what it keeps. */
  lemma {:induction false} KeepIsSubsequence<T(!new)>(xs: seq<T>, p: T -> bool)
    ensures IsSubsequence(Keep(xs, p), xs)
  {
    if xs != [] {
      KeepIsSubsequence(xs[1..], p);
      var r := Keep(xs, p);
      if p(xs[0]) {
        assert r[0] == xs[0] && r[1..] == Keep(xs[1..], p);
      }
    }
  }

  /** filter with a predicate every element satisfies is the identity. */
  lemma {:induction false} KeepAll<T(!new)>(xs: seq<T>, p: T -> bool)
    requires forall x :: x in xs ==> p(x)
    ensures Keep(xs, p) == xs
  {
    if xs != [] {
      assert xs[0] in xs;
      assert forall x :: x in xs[1..] ==> x in xs;
      KeepAll(xs[1..], p);
      assert [xs[0]] + xs[1..] == xs;
    }
  }

  /** Filtering twice by the same predicate is filtering once. */
  lemma KeepIdempotent<T(!new)>(xs: seq<T>, p: T -> bool)
    ensures Keep(Keep(xs, p), p) == Keep(xs, p)
  {
    KeepAll(Keep(xs, p), p);
  }

  /** Array.prototype.findIndex comparing key(x) with k: the first matching
      index, or -1 when nothing matches. */
  function IndexWhere<T>(xs: seq<T>, key: T -> string, k: string): (i: int)
    ensures -1 <= i < |xs|
    ensures i == -1 <==> forall j :: 0 <= j < |xs| ==> key(xs[j]) != k
    ensures 0 <= i ==> key(xs[i]) == k && forall j :: 0 <= j < i ==> key(xs[j]) != k
  {
    if xs == [] then -1
    else if key(xs[0]) == k then 0
    else
      var i := IndexWhere(xs[1..], key, k);
      if i == -1 then -1 else i + 1
  }

  /** Array.prototype.find comparing key(x) with k: the first match, if any. */
  function FindWhere<T(!new)>(xs: seq<T>, key: T -> string, k: string): (r: Option<T>)
    ensures r.None? <==> forall x :: x in xs ==> key(x) != k
    ensures r.Some? ==> r.value in xs && key(r.value) == k
  {
    var i := IndexWhere(xs, key, k);
    if i == -1 then None else Some(xs[i])
  }

  /** String.prototype.toLowerCase restricted to ASCII letters. */
  function Lower(s: string): (r: string)
    ensures |r| == |s|
    ensures forall i :: 0 <= i < |s| ==> ('A' <= s[i] <= 'Z' ==> r[i] as int == s[i] as int + 32)
    ensures forall i :: 0 <= i < |s| ==> (!('A' <= s[i] <= 'Z') ==> r[i] == s[i])
  {
    if s == [] then ""
    else [LowerChar(s[0])] + Lower(s[1..])
  }

  function LowerChar(c: char): char {
    if 'A' <= c <= 'Z' then (c as int + 32) as char else c
  }

  /** String.prototype.includes: needle occurs in hay at some position. */
  predicate Includes(hay: string, needle: string)
    decreases |hay|
  {
    needle <= hay || (hay != [] && Includes(hay[1..], needle))
  }
}

=== FILE: dialog.dfy ===
/** The form dialog's state (src/hooks/useDialogHandlers.ts): whether it is
    open, which kind of record it edits, and the item being edited. The hook
    makes its own useStudentData instance, so it saves through that instance
    over the shared localStorage. */
module DialogHandling {
  import opened Common
  import opened Entities
  import opened Storage
  import opened StudentDataHook

  class DialogHandlers {
    const data: StudentData
    var isDialogOpen: bool
    var dialogType: EntityKind
    /** `any`: null, a record being edited, or the prefill `{ filiereId }`. */
    var editingItem: Option<Bag>

    constructor (storage: LocalStorage)
      ensures data.storage == storage && fresh(data)
      ensures !isDialogOpen && dialogType == FiliereKind && editingItem.None?
    {
      data := new StudentData(storage);
      isDialogOpen := false;
      dialogType := FiliereKind;
      editingItem := None;
    }

    /** openDialog (lines 16-21); an omitted item is stored as null. */
    method OpenDialog(kind: EntityKind, item: Option<Bag>)
      modifies this`isDialogOpen, this`dialogType, this`editingItem
      ensures isDialogOpen && dialogType == kind && editingItem == item
    {
      dialogType := kind;
      editingItem := item;
      isDialogOpen := true;
    }

    /** closeDialog (lines 23-27) keeps dialogType. */
    method CloseDialog()
      modifies this`isDialogOpen, this`editingItem
      ensures !isDialogOpen && editingItem.None?
    {
      isDialogOpen := false;
      editingItem := None;
    }

    /** handleAddClasseToFiliere (lines 29-34): a classe dialog whose
        editingItem carries only the filière id. */
    method HandleAddClasseToFiliere(filiereId: string)
      modifies this`isDialogOpen, this`dialogType, this`editingItem
      ensures isDialogOpen && dialogType == ClasseKind
      ensures editingItem == Some(AddClasseItem(filiereId))
    {
      OpenDialog(ClasseKind, Some(AddClasseItem(filiereId)));
    }

    /** handleEditClasse (lines 36-43): ignored unless the item has a truthy id. */
    method HandleEditClasse(classe: Option<Bag>)
      modifies this`isDialogOpen, this`dialogType, this`editingItem
      ensures classe.None? || !Filled(classe.value, "id") ==>
        isDialogOpen == old(isDialogOpen) && dialogType == old(dialogType) && editingItem == old(editingItem)
      ensures classe.Some? && Filled(classe.value, "id") ==>
        isDialogOpen && dialogType == ClasseKind && editingItem == classe
    {
      if classe.None? || !Filled(classe.value, "id") {
        return;
      }
      OpenDialog(ClasseKind, classe);
    }

    /** handleEditStudent (lines 45-52), the same check for students. */
    method HandleEditStudent(student: Option<Bag>)
      modifies this`isDialogOpen, this`dialogType, this`editingItem
      ensures student.None? || !Filled(student.value, "id") ==>
        isDialogOpen == old(isDialogOpen) && dialogType == old(dialogType) && editingItem == old(editingItem)
      ensures student.Some? && Filled(student.value, "id") ==>
        isDialogOpen && dialogType == StudentKind && editingItem == student
    {
      if student.None? || !Filled(student.value, "id") {
        return;
      }
      OpenDialog(StudentKind, student);
    }

    /** The save-with-close wrappers (lines 54-79) pass the current
        editingItem, close the dialog exactly when the save reports success,
        and return what the save returned. */
    method HandleSaveFiliereWithClose(form: Bag, id: string, now: string) returns (success: bool)
      modifies this`isDialogOpen, this`editingItem, data`refreshKey, data.storage`filieres
      ensures data.storage.filieres == FilieresAfterSave(old(data.storage.filieres), form, old(editingItem), id, now)
      ensures success <==> !old(data.storage.filieres).Unparsable?
      ensures success ==> !isDialogOpen && editingItem.None?
      ensures !success ==> isDialogOpen == old(isDialogOpen) && editingItem == old(editingItem)
    {
      success := data.HandleSaveFiliere(form, editingItem, id, now);
      if success {
        CloseDialog();
      }
    }

    method HandleSaveClasseWithClose(form: Bag, id: string, now: string) returns (success: bool)
      modifies this`isDialogOpen, this`editingItem, data`refreshKey, data.storage`classes
      ensures data.storage.classes == ClassesAfterSave(old(data.storage.classes), form, old(editingItem), id, now)
      ensures success <==> !old(data.storage.classes).Unparsable?
      ensures success ==> !isDialogOpen && editingItem.None?
      ensures !success ==> isDialogOpen == old(isDialogOpen) && editingItem == old(editingItem)
    {
      success := data.HandleSaveClasse(form, editingItem, id, now);
      if success {
        CloseDialog();
      }
    }

    method HandleSaveStudentWithClose(form: Bag, id: string, now: string) returns (success: bool)
      modifies this`isDialogOpen, this`editingItem, data`refreshKey, data.storage`students
      ensures data.storage.students == StudentsAfterSave(old(data.storage.students), form, old(editingItem), id, now)
      ensures success <==> !old(data.storage.students).Unparsable?
      ensures success ==> !isDialogOpen && editingItem.None?
      ensures !success ==> isDialogOpen == old(isDialogOpen) && editingItem == old(editingItem)
    {
      success := data.HandleSaveStudent(form, editingItem, id, now);
      if success {
        CloseDialog();
      }
    }
  }
}

=== FILE: entities.dfy ===
/** The four persisted record shapes (src/utils/studentStorage.ts:2-45), the
    field sets their add operations take, the partial records their update
    operations merge, and the loosely typed form payloads the UI passes around. */
module Entities {
  import opened Common

  /** A JavaScript object used as a bag of string-valued properties (the
      `any`-typed form data and editingItem of the UI). */
  type Bag = map<string, string>

  /** The 'filiere' | 'classe' | 'student' tag used by dialogs and deletes. */
  datatype EntityKind = FiliereKind | ClasseKind | StudentKind

  datatype Filiere = Filiere(id: string, nom: string, code: string, description: string, createdAt: string)

  datatype Classe = Classe(id: string, nom: string, niveau: string, session: string, filiereId: string, createdAt: string)

  /** sexe ('M' | 'F') and statut ('actif' | 'inactif' | 'suspendu') are kept
      as the strings the forms produce. */
  datatype Student = Student(
    id: string, nom: string, prenom: string, email: string, sexe: string,
    classeId: string, dateNaissance: string, telephone: Option<string>,
    adresse: Option<string>, statut: string, createdAt: string)

  datatype AbsenceType = Absent | Retard

  datatype Absence = Absence(
    id: string, studentId: string, sessionId: string, date: string, kind: AbsenceType,
    formateur: string, validated: bool, validatedBy: Option<string>,
    validatedAt: Option<string>, justification: Option<string>, createdAt: string)

  /** Omit<E, 'id' | 'createdAt'>: what an add operation is given. */
  datatype FiliereFields = FiliereFields(nom: string, code: string, description: string)

  datatype ClasseFields = ClasseFields(nom: string, niveau: string, session: string, filiereId: string)

  datatype StudentFields = StudentFields(
    nom: string, prenom: string, email: string, sexe: string, classeId: string,
    dateNaissance: string, telephone: Option<string>, adresse: Option<string>, statut: string)

  datatype AbsenceFields = AbsenceFields(
    studentId: string, sessionId: string, date: string, kind: AbsenceType, formateur: string,
    validated: bool, validatedBy: Option<string>, validatedAt: Option<string>,
    justification: Option<string>)

  /** Partial<E>: every property, id and createdAt included, may be present. */
  datatype FilierePatch = FilierePatch(
    id: Option<string>, nom: Option<string>, code: Option<string>,
    description: Option<string>, createdAt: Option<string>)

  datatype ClassePatch = ClassePatch(
    id: Option<string>, nom: Option<string>, niveau: Option<string>, session: Option<string>,
    filiereId: Option<string>, createdAt: Option<string>)

  datatype StudentPatch = StudentPatch(
    id: Option<string>, nom: Option<string>, prenom: Option<string>, email: Option<string>,
    sexe: Option<string>, classeId: Option<string>, dateNaissance: Option<string>,
    telephone: Option<string>, adresse: Option<string>, statut: Option<string>,
    createdAt: Option<string>)

  /** The record AbsenceEntry appends under its own 'absences' key
      (src/components/absence/AbsenceEntry.tsx:99-107). */
  datatype SessionRecord = SessionRecord(
    session: string, filiere: string, classe: string, absentStudents: seq<string>,
    lateStudents: seq<string>, formateur: string, timestamp: string)

  // ---- the spread `{ ...fields, id, createdAt }` of the add operations

  function NewFiliere(f: FiliereFields, id: string, now: string): (r: Filiere)
    ensures r.id == id && r.createdAt == now
    ensures FiliereFieldsOf(r) == f
  {
    Filiere(id, f.nom, f.code, f.description, now)
  }

  function FiliereFieldsOf(f: Filiere): FiliereFields {
    FiliereFields(f.nom, f.code, f.description)
  }

  function NewClasse(f: ClasseFields, id: string, now: string): (r: Classe)
    ensures r.id == id && r.createdAt == now
    ensures ClasseFieldsOf(r) == f
  {
    Classe(id, f.nom, f.niveau, f.session, f.filiereId, now)
  }

  function ClasseFieldsOf(c: Classe): ClasseFields {
    ClasseFields(c.nom, c.niveau, c.session, c.filiereId)
  }

  function NewStudent(f: StudentFields, id: string, now: string): (r: Student)
    ensures r.id == id && r.createdAt == now
    ensures StudentFieldsOf(r) == f
  {
    Student(id, f.nom, f.prenom, f.email, f.sexe, f.classeId, f.dateNaissance,
            f.telephone, f.adresse, f.statut, now)
  }

  function StudentFieldsOf(s: Student): StudentFields {
    StudentFields(s.nom, s.prenom, s.email, s.sexe, s.classeId, s.dateNaissance,
                  s.telephone, s.adresse, s.statut)
  }

  function NewAbsence(f: AbsenceFields, id: string, now: string): (r: Absence)
    ensures r.id == id && r.createdAt == now
    ensures AbsenceFieldsOf(r) == f
  {
    Absence(id, f.studentId, f.sessionId, f.date, f.kind, f.formateur, f.validated,
            f.validatedBy, f.validatedAt, f.justification, now)
  }

  function AbsenceFieldsOf(a: Absence): AbsenceFields {
    AbsenceFields(a.studentId, a.sessionId, a.date, a.kind, a.formateur, a.validated,
                  a.validatedBy, a.validatedAt, a.justification)
  }

  // ---- the shallow merge `{ ...record, ...updates }` of the update operations

  /** A property present in the patch overwrites the record's; an absent one
      leaves it as it was. */
  function MergeFiliere(f: Filiere, p: FilierePatch): (r: Filiere)
    ensures p.id.Some? ==> r.id == p.id.value
    ensures p.id.None? ==> r.id == f.id
    ensures p.nom.Some? ==> r.nom == p.nom.value
    ensures p.nom.None? ==> r.nom == f.nom
    ensures p.code.Some? ==> r.code == p.code.value
    ensures p.code.None? ==> r.code == f.code
    ensures p.description.Some? ==> r.description == p.description.value
    ensures p.description.None? ==> r.description == f.description
    ensures p.createdAt.Some? ==> r.createdAt == p.createdAt.value
    ensures p.createdAt.None? ==> r.createdAt == f.createdAt
  {
    Filiere(p.id.GetOr(f.id), p.nom.GetOr(f.nom), p.code.GetOr(f.code),
            p.description.GetOr(f.description), p.createdAt.GetOr(f.createdAt))
  }

  function MergeClasse(c: Classe, p: ClassePatch): (r: Classe)
    ensures p.id.Some? ==> r.id == p.id.value
    ensures p.id.None? ==> r.id == c.id
    ensures p.nom.Some? ==> r.nom == p.nom.value
    ensures p.nom.None? ==> r.nom == c.nom
    ensures p.niveau.Some? ==> r.niveau == p.niveau.value
    ensures p.niveau.None? ==> r.niveau == c.niveau
    ensures p.session.Some? ==> r.session == p.session.value
    ensures p.session.None? ==> r.session == c.session
    ensures p.filiereId.Some? ==> r.filiereId == p.filiereId.value
    ensures p.filiereId.None? ==> r.filiereId == c.filiereId
    ensures p.createdAt.Some? ==> r.createdAt == p.createdAt.value
    ensures p.createdAt.None? ==> r.createdAt == c.createdAt
  {
    Classe(p.id.GetOr(c.id), p.nom.GetOr(c.nom), p.niveau.GetOr(c.niveau),
           p.session.GetOr(c.session), p.filiereId.GetOr(c.filiereId),
           p.createdAt.GetOr(c.createdAt))
  }

  function MergeStudent(s: Student, p: StudentPatch): (r: Student)
    ensures p.id.Some? ==> r.id == p.id.value
    ensures p.id.None? ==> r.id == s.id
    ensures p.nom.Some? ==> r.nom == p.nom.value
    ensures p.nom.None? ==> r.nom == s.nom
    ensures p.prenom.Some? ==> r.prenom == p.prenom.value
    ensures p.prenom.None? ==> r.prenom == s.prenom
    ensures p.email.Some? ==> r.email == p.email.value
    ensures p.email.None? ==> r.email == s.email
    ensures p.sexe.Some? ==> r.sexe == p.sexe.value
    ensures p.sexe.None? ==> r.sexe == s.sexe
    ensures p.classeId.Some? ==> r.classeId == p.classeId.value
    ensures p.classeId.None? ==> r.classeId == s.classeId
    ensures p.dateNaissance.Some? ==> r.dateNaissance == p.dateNaissance.value
    ensures p.dateNaissance.None? ==> r.dateNaissance == s.dateNaissance
    ensures p.telephone.Some? ==> r.telephone == p.telephone
    ensures p.telephone.None? ==> r.telephone == s.telephone
    ensures p.adresse.Some? ==> r.adresse == p.adresse
    ensures p.adresse.None? ==> r.adresse == s.adresse
    ensures p.statut.Some? ==> r.statut == p.statut.value
    ensures p.statut.None? ==> r.statut == s.statut
    ensures p.createdAt.Some? ==> r.createdAt == p.createdAt.value
    ensures p.createdAt.None? ==> r.createdAt == s.createdAt
  {
    Student(p.id.GetOr(s.id), p.nom.GetOr(s.nom), p.prenom.GetOr(s.prenom),
            p.email.GetOr(s.email), p.sexe.GetOr(s.sexe), p.classeId.GetOr(s.classeId),
            p.dateNaissance.GetOr(s.dateNaissance),
            if p.telephone.Some? then p.telephone else s.telephone,
            if p.adresse.Some? then p.adresse else s.adresse,
            p.statut.GetOr(s.statut), p.createdAt.GetOr(s.createdAt))
  }

  // ---- reading typed records out of `any` payloads

  /** `bag.k` where the property is present; undefined otherwise. */
  function Lookup(b: Bag, k: string): (r: Option<string>)
    ensures r.Some? <==> k in b
    ensures r.Some? ==> r.value == b[k]
  {
    if k in b then Some(b[k]) else None
  }

  /** JavaScript truthiness of `bag.k`: present and not the empty string. */
  predicate Filled(b: Bag, k: string) {
    k in b && b[k] != ""
  }

  /** The value an add operation stores for property k of the payload; the
      source stores undefined for a missing property, the model "". */
  function FieldOr(b: Bag, k: string): string {
    Lookup(b, k).GetOr("")
  }

  function FiliereFieldsFromBag(b: Bag): FiliereFields {
    FiliereFields(FieldOr(b, "nom"), FieldOr(b, "code"), FieldOr(b, "description"))
  }

  function ClasseFieldsFromBag(b: Bag): ClasseFields {
    ClasseFields(FieldOr(b, "nom"), FieldOr(b, "niveau"), FieldOr(b, "session"), FieldOr(b, "filiereId"))
  }

  function StudentFieldsFromBag(b: Bag): StudentFields {
    StudentFields(FieldOr(b, "nom"), FieldOr(b, "prenom"), FieldOr(b, "email"), FieldOr(b, "sexe"),
                  FieldOr(b, "classeId"), FieldOr(b, "dateNaissance"), Lookup(b, "telephone"),
                  Lookup(b, "adresse"), FieldOr(b, "statut"))
  }

  /** A payload used as Partial<E>: exactly the properties it carries. */
  function FilierePatchFromBag(b: Bag): FilierePatch {
    FilierePatch(Lookup(b, "id"), Lookup(b, "nom"), Lookup(b, "code"),
                 Lookup(b, "description"), Lookup(b, "createdAt"))
  }

  function ClassePatchFromBag(b: Bag): ClassePatch {
    ClassePatch(Lookup(b, "id"), Lookup(b, "nom"), Lookup(b, "niveau"), Lookup(b, "session"),
                Lookup(b, "filiereId"), Lookup(b, "createdAt"))
  }

  function StudentPatchFromBag(b: Bag): StudentPatch {
    StudentPatch(Lookup(b, "id"), Lookup(b, "nom"), Lookup(b, "prenom"), Lookup(b, "email"),
                 Lookup(b, "sexe"), Lookup(b, "classeId"), Lookup(b, "dateNaissance"),
                 Lookup(b, "telephone"), Lookup(b, "adresse"), Lookup(b, "statut"),
                 Lookup(b, "createdAt"))
  }

  /** Merging a payload that carries only a new statut changes only statut. */
  lemma StatutOnlyUpdate(s: Student, statut: string)
    ensures MergeStudent(s, StudentPatchFromBag(map["statut" := statut])) == s.(statut := statut)
  {
    var b := map["statut" := statut];
    assert Lookup(b, "statut") == Some(statut);
    assert forall k :: k != "statut" ==> Lookup(b, k) == None;
  }
}

=== FILE: filiere_view.dfy ===
/** The filière screen (src/components/students/FiliereView.tsx): the
    filière's classes, its student total, and the per-classe counts. */
module FiliereScreen {
  import opened Common
  import opened Entities
  import opened Queries

  /** The per-classe counts of line 83, one for each classe shown. */
  function ClassCounts(students: seq<Student>, cs: seq<Classe>): (r: seq<nat>)
    ensures |r| == |cs|
    ensures forall i :: 0 <= i < |cs| ==> r[i] == CountInClasse(students, cs[i].id)
  {
    if cs == [] then []
    else [CountInClasse(students, cs[0].id)] + ClassCounts(students, cs[1..])
  }

  function Sum(xs: seq<nat>): nat {
    if xs == [] then 0 else xs[0] + Sum(xs[1..])
  }

  /** How many classes of cs carry the id. */
  function Occurrences(cs: seq<Classe>, id: string): nat {
    if cs == [] then 0 else (if cs[0].id == id then 1 else 0) + Occurrences(cs[1..], id)
  }

  /** With distinct ids a classe id occurs once or not at all. */
  lemma {:induction false} OccurrencesDistinct(cs: seq<Classe>, id: string)
    requires DistinctClasseIds(cs)
    ensures Occurrences(cs, id) == if exists c :: c in cs && c.id == id then 1 else 0
  {
    if cs != [] {
      var tail := cs[1..];
      assert DistinctClasseIds(tail) by {
        forall i, j | 0 <= i < j < |tail|
          ensures tail[i].id != tail[j].id
        {
          assert tail[i] == cs[i + 1] && tail[j] == cs[j + 1];
        }
      }
      OccurrencesDistinct(tail, id);
      if cs[0].id == id {
        forall c | c in tail
          ensures c.id != id
        {
          var j :| 0 <= j < |tail| && tail[j] == c;
          assert cs[j + 1] == c;
        }
      } else {
        assert (exists c :: c in cs && c.id == id) <==> (exists c :: c in tail && c.id == id) by {
          assert cs == [cs[0]] + tail;
        }
      }
    }
  }

  /** Counting the first student apart: it adds one to the count of every
      classe carrying its classeId. */
  lemma {:induction false} CountsSplit(students: seq<Student>, cs: seq<Classe>)
    requires students != []
    ensures Sum(ClassCounts(students, cs)) == Sum(ClassCounts(students[1..], cs)) + Occurrences(cs, students[0].classeId)
  {
    if cs != [] {
      var k := cs[0].id;
      var p := (s: Student) => s.classeId == k;
      assert CountInClasse(students, k) == |Keep(students, p)|;
      assert CountInClasse(students[1..], k) == |Keep(students[1..], p)|;
      assert CountInClasse(students, k) == (if students[0].classeId == k then 1 else 0) + CountInClasse(students[1..], k);
      CountsSplit(students, cs[1..]);
      assert ClassCounts(students, cs)[1..] == ClassCounts(students, cs[1..]);
      assert ClassCounts(students[1..], cs)[1..] == ClassCounts(students[1..], cs[1..]);
    }
  }

  /** No students, every count zero. */
  lemma {:induction false} CountsOfNobody(cs: seq<Classe>)
    ensures Sum(ClassCounts([], cs)) == 0
  {
    if cs != [] {
      CountsOfNobody(cs[1..]);
      assert ClassCounts([], cs)[1..] == ClassCounts([], cs[1..]);
    }
  }

  /** The per-classe counts of a filière add up to the total in its header
      (lines 66 and 71) when its classes carry distinct ids: each
      student is counted once, under its one classe. */
  lemma {:induction false} CountsAddUpToTotal(students: seq<Student>, classes: seq<Classe>, filiereId: string)
    requires DistinctClasseIds(ClassesOfFiliere(classes, filiereId))
    ensures Sum(ClassCounts(students, ClassesOfFiliere(classes, filiereId))) == |FiliereStudents(students, classes, filiereId)|
  {
    SumIsStudentsOfClasses(students, ClassesOfFiliere(classes, filiereId));
  }

  lemma {:induction false} SumIsStudentsOfClasses(students: seq<Student>, cs: seq<Classe>)
    requires DistinctClasseIds(cs)
    ensures Sum(ClassCounts(students, cs)) == |StudentsOfClasses(students, cs)|
  {
    if students == [] {
      CountsOfNobody(cs);
    } else {
      SumIsStudentsOfClasses(students[1..], cs);
      CountsSplit(students, cs);
      OccurrencesDistinct(cs, students[0].classeId);
      var p := (s: Student) => FindClasse(cs, s.classeId).Some?;
      assert StudentsOfClasses(students, cs) == Keep(students, p);
      assert StudentsOfClasses(students[1..], cs) == Keep(students[1..], p);
    }
  }

  /** Two classes of the filière sharing an id make one student count
      twice: the counts then exceed the header total. */
  lemma DuplicateIdsOvercount(s: Student, c: Classe)
    ensures var cs := [c, c];
      var students := [s.(classeId := c.id)];
      Sum(ClassCounts(students, cs)) == 2 && |StudentsOfClasses(students, cs)| == 1
  {
    var st := s.(classeId := c.id);
    assert CountInClasse([st], c.id) == 1 by {
      assert Keep([st], (x: Student) => x.classeId == c.id) == [st];
    }
    assert ClassCounts([st], [c, c]) == [1, 1];
    assert Sum([1, 1]) == 2 by {
      assert [1, 1][1..] == [1];
      assert Sum([1]) == 1;
    }
    assert FindClasse([c, c], c.id).Some?;
    assert StudentsOfClasses([st], [c, c]) == [st];
  }

  /** The "Ajouter Classe" button (line 37) and each classe's delete button
      (line 89) are drawn exactly when the screen is given the callback. */
  datatype FiliereCallbacks = FiliereCallbacks(hasAddClasse: bool, hasDeleteClasse: bool)

  /** The buttons the screen draws. */
  datatype FiliereButtons = FiliereButtons(addClasse: bool, deleteOnClasses: seq<string>)

  function Buttons(cb: FiliereCallbacks, filiere: Filiere, classes: seq<Classe>): (r: FiliereButtons)
    ensures r.addClasse <==> cb.hasAddClasse
    ensures !cb.hasDeleteClasse ==> r.deleteOnClasses == []
    ensures cb.hasDeleteClasse ==> forall id :: id in r.deleteOnClasses <==> exists c :: c in classes && c.filiereId == filiere.id && c.id == id
  {
    var shown := ClassesOfFiliere(classes, filiere.id);
    FiliereButtons(cb.hasAddClasse, if cb.hasDeleteClasse then ClasseIds(shown) else [])
  }

  function ClasseIds(cs: seq<Classe>): (r: seq<string>)
    ensures forall id :: id in r <==> exists c :: c in cs && c.id == id
  {
    if cs == [] then []
    else
      assert cs == [cs[0]] + cs[1..];
      [cs[0].id] + ClasseIds(cs[1..])
  }
}

=== FILE: form_dialog.dfy ===
/** The add/edit form dialog (src/components/students/FormDialog.tsx): the
    form's starting content, the required-field check of handleSubmit, and
    the choice of save callback and closing. The save callbacks belong to
    the page that renders the dialog, so their answer is a parameter. */
module FormDialogModel {
  import opened Common
  import opened Entities
  import opened StudentDataHook

  /** The effect of lines 34-42: an edit starts from the edited item, a new
      student from `{ statut: 'actif' }`, anything else from `{}`. */
  function InitialFormData(kind: EntityKind, editingItem: Option<Bag>): (r: Bag)
    ensures editingItem.Some? ==> r == editingItem.value
    ensures editingItem.None? ==> r.Keys <= {"statut"}
    ensures editingItem.None? ==> ("statut" in r <==> kind == StudentKind)
    ensures "statut" in r && editingItem.None? ==> r["statut"] == "actif"
  {
    if editingItem.Some? then editingItem.value
    else if kind == StudentKind then map["statut" := "actif"]
    else map[]
  }

  /** `setFormData({ ...formData, k: v })`, what every input does. */
  function SetField(form: Bag, k: string, v: string): Bag {
    form[k := v]
  }

  /** The required fields of each kind, as the form marks them. */
  function RequiredFields(kind: EntityKind): set<string> {
    match kind
    case FiliereKind => {"code", "nom"}
    case ClasseKind => {"nom", "filiereId", "niveau"}
    case StudentKind => {"nom", "prenom", "email", "classeId", "sexe"}
  }

  /** The three `if (type === … && (!formData.a || …))` checks of lines
      48-59: true when the submit goes through. */
  function Validate(kind: EntityKind, form: Bag): (ok: bool)
    ensures ok <==> forall k :: k in RequiredFields(kind) ==> Filled(form, k)
  {
    if kind == FiliereKind && (!Filled(form, "code") || !Filled(form, "nom")) then false
    else if kind == ClasseKind && (!Filled(form, "nom") || !Filled(form, "filiereId") || !Filled(form, "niveau")) then false
    else if kind == StudentKind && (!Filled(form, "nom") || !Filled(form, "prenom") || !Filled(form, "email")
                                    || !Filled(form, "classeId") || !Filled(form, "sexe")) then false
    else true
  }

  datatype SubmitOutcome =
    | Rejected
    | Submitted(kind: EntityKind, form: Bag, editingItem: Option<Bag>, closes: bool)

  /** handleSubmit (lines 44-77): no callback on a rejected form; otherwise
      the callback of the dialog's kind gets the form and the editingItem,
      and the dialog closes exactly when that callback returns true. */
  function Submit(kind: EntityKind, form: Bag, editingItem: Option<Bag>, saveReturns: bool): (r: SubmitOutcome)
    ensures r == Rejected <==> exists k :: k in RequiredFields(kind) && !Filled(form, k)
    ensures r.Submitted? ==> r.kind == kind && r.form == form && r.editingItem == editingItem
    ensures r.Submitted? ==> (r.closes <==> saveReturns)
  {
    if !Validate(kind, form) then Rejected
    else Submitted(kind, form, editingItem, saveReturns)
  }

  /** A fresh form is never submitted as it starts: every kind has a
      required field the starting content leaves empty. */
  lemma {:induction false} FreshFormIsRejected(kind: EntityKind)
    ensures Submit(kind, InitialFormData(kind, None), None, true) == Rejected
  {
    assert "nom" in RequiredFields(kind) && !Filled(InitialFormData(kind, None), "nom");
  }

  /** The add-classe-to-filière dialog starts with the filière filled in,
      so filling nom and niveau is enough to submit it, and the submit
      carries the `{ filiereId }` item into the save. */
  lemma {:induction false} AddClasseFormSubmits(filiereId: string, nom: string, niveau: string, saveReturns: bool)
    requires filiereId != "" && nom != "" && niveau != ""
    ensures var item := AddClasseItem(filiereId);
      var form := SetField(SetField(InitialFormData(ClasseKind, Some(item)), "nom", nom), "niveau", niveau);
      Submit(ClasseKind, form, Some(item), saveReturns) == Submitted(ClasseKind, form, Some(item), saveReturns)
      && form["filiereId"] == filiereId
  {
    var item := AddClasseItem(filiereId);
    var form := SetField(SetField(InitialFormData(ClasseKind, Some(item)), "nom", nom), "niveau", niveau);
    assert Filled(form, "filiereId") && Filled(form, "nom") && Filled(form, "niveau");
  }
}

=== FILE: navigation.dfy ===
/** The navigation state of the students page
    (src/hooks/useNavigationHandlers.ts): the current view and the selected
    filière, classe and student, changed by five handlers. */
module Navigation {
  import opened Common
  import opened Entities

  datatype View = OverviewView | FiliereView | ClasseView | StudentView

  /** The four state fields taken together. */
  datatype NavState = NavState(view: View, filiere: Option<Filiere>, classe: Option<Classe>, student: Option<Student>)

  const Initial := NavState(OverviewView, None, None, None)

  /** The five handlers as actions a screen can offer. */
  datatype NavAction =
    | ViewFiliere(f: Filiere)
    | ViewClasse(c: Classe)
    | ViewStudent(st: Student)
    | BackToOverview
    | BackToFiliere

  /** The state after a handler runs (lines 11-40). */
  function Step(s: NavState, a: NavAction): NavState {
    match a
    case ViewFiliere(f) => s.(view := FiliereView, filiere := Some(f))
    case ViewClasse(c) => s.(view := ClasseView, classe := Some(c))
    case ViewStudent(st) => s.(view := StudentView, student := Some(st))
    case BackToOverview => Initial
    case BackToFiliere => s.(view := FiliereView, classe := None, student := None)
  }

  /** The two back handlers are idempotent, and going back to the overview
      forgets every selection whatever came before. */
  lemma BackIsIdempotent(s: NavState, a: NavAction)
    requires a == BackToOverview || a == BackToFiliere
    ensures Step(Step(s, a), a) == Step(s, a)
    ensures Step(Step(s, a), BackToOverview) == Initial
  {
  }

  class NavigationHandlers {
    var currentView: View
    var selectedFiliere: Option<Filiere>
    var selectedClasse: Option<Classe>
    var selectedStudent: Option<Student>

    function State(): NavState
      reads this
    {
      NavState(currentView, selectedFiliere, selectedClasse, selectedStudent)
    }

    constructor ()
      ensures currentView == OverviewView
      ensures selectedFiliere.None? && selectedClasse.None? && selectedStudent.None?
      ensures State() == Initial
    {
      currentView := OverviewView;
      selectedFiliere, selectedClasse, selectedStudent := None, None, None;
    }

    method HandleViewFiliere(filiere: Filiere)
      modifies this
      ensures currentView == FiliereView && selectedFiliere == Some(filiere)
      ensures selectedClasse == old(selectedClasse) && selectedStudent == old(selectedStudent)
      ensures State() == Step(old(State()), ViewFiliere(filiere))
    {
      selectedFiliere := Some(filiere);
      currentView := FiliereView;
    }

    method HandleViewClasse(classe: Classe)
      modifies this
      ensures currentView == ClasseView && selectedClasse == Some(classe)
      ensures selectedFiliere == old(selectedFiliere) && selectedStudent == old(selectedStudent)
      ensures State() == Step(old(State()), ViewClasse(classe))
    {
      selectedClasse := Some(classe);
      currentView := ClasseView;
    }

    method HandleViewStudent(student: Student)
      modifies this
      ensures currentView == StudentView && selectedStudent == Some(student)
      ensures selectedFiliere == old(selectedFiliere) && selectedClasse == old(selectedClasse)
      ensures State() == Step(old(State()), ViewStudent(student))
    {
      selectedStudent := Some(student);
      currentView := StudentView;
    }

    method HandleBackToOverview()
      modifies this
      ensures currentView == OverviewView
      ensures selectedFiliere.None? && selectedClasse.None? && selectedStudent.None?
      ensures State() == Step(old(State()), BackToOverview)
    {
      currentView := OverviewView;
      selectedFiliere := None;
      selectedClasse := None;
      selectedStudent := None;
    }

    method HandleBackToFiliere()
      modifies this
      ensures currentView == FiliereView && selectedFiliere == old(selectedFiliere)
      ensures selectedClasse.None? && selectedStudent.None?
      ensures State() == Step(old(State()), BackToFiliere)
    {
      currentView := FiliereView;
      selectedClasse := None;
      selectedStudent := None;
    }
  }
}

=== FILE: queries.dfy ===
/** Derived lists computed the same way in several places of the source:
    the store's getStudentsByClasse, the delete guards, and the filière,
    classe and overview screens. */
module Queries {
  import opened Common
  import opened Entities

  function FiliereId(f: Filiere): string { f.id }
  function ClasseId(c: Classe): string { c.id }
  function StudentId(s: Student): string { s.id }
  function AbsenceId(a: Absence): string { a.id }

  /** `classes.filter(c => c.filiereId === filiereId)` */
  function ClassesOfFiliere(cs: seq<Classe>, filiereId: string): (r: seq<Classe>)
    ensures forall c :: c in r <==> c in cs && c.filiereId == filiereId
  {
    Keep(cs, (c: Classe) => c.filiereId == filiereId)
  }

  /** `students.filter(s => s.classeId === classeId)` */
  function StudentsOfClasse(ss: seq<Student>, classeId: string): (r: seq<Student>)
    ensures forall s :: s in r <==> s in ss && s.classeId == classeId
  {
    Keep(ss, (s: Student) => s.classeId == classeId)
  }

  /** `classes.find(c => c.id === id)` */
  function FindClasse(cs: seq<Classe>, id: string): (r: Option<Classe>)
    ensures r.None? <==> forall c :: c in cs ==> c.id != id
    ensures r.Some? ==> r.value in cs && r.value.id == id
  {
    FindWhere(cs, ClasseId, id)
  }

  /** `filieres.find(f => f.id === id)` */
  function FindFiliere(fs: seq<Filiere>, id: string): (r: Option<Filiere>)
    ensures r.None? <==> forall f :: f in fs ==> f.id != id
    ensures r.Some? ==> r.value in fs && r.value.id == id
  {
    FindWhere(fs, FiliereId, id)
  }

  /** `students.find(s => s.id === id)` */
  function FindStudent(ss: seq<Student>, id: string): (r: Option<Student>)
    ensures r.None? <==> forall s :: s in ss ==> s.id != id
    ensures r.Some? ==> r.value in ss && r.value.id == id
  {
    FindWhere(ss, StudentId, id)
  }

  /** `students.filter(s => cs.find(c => c.id === s.classeId) !== undefined)`:
      the students whose classe is one of cs. */
  function StudentsOfClasses(ss: seq<Student>, cs: seq<Classe>): (r: seq<Student>)
    ensures forall s :: s in r <==> s in ss && exists c :: c in cs && c.id == s.classeId
  {
    Keep(ss, (s: Student) => FindClasse(cs, s.classeId).Some?)
  }

  /** The students of a filière, as the overview card and the filière
      screen compute them: those whose classe (the first with that id among
      the filière's classes) exists. */
  function FiliereStudents(ss: seq<Student>, cs: seq<Classe>, filiereId: string): (r: seq<Student>)
    ensures forall s :: s in r <==> s in ss && exists c :: c in cs && c.filiereId == filiereId && c.id == s.classeId
  {
    StudentsOfClasses(ss, ClassesOfFiliere(cs, filiereId))
  }

  /** The search of the overview and classe screens: the lowercased term
      occurs in the lowercased nom, prenom or email. */
  predicate MatchesSearch(s: Student, term: string) {
    var t := Lower(term);
    Includes(Lower(s.nom), t) || Includes(Lower(s.prenom), t) || Includes(Lower(s.email), t)
  }

  /** The empty search term matches every student. */
  lemma EmptySearchMatchesAll(s: Student)
    ensures MatchesSearch(s, "")
  {
    assert Lower("") == "";
    assert "" <= Lower(s.nom);
  }

  /** No two classes share an id, as the generated ids intend. */
  predicate DistinctClasseIds(cs: seq<Classe>) {
    forall i, j :: 0 <= i < j < |cs| ==> cs[i].id != cs[j].id
  }

  /** With distinct ids, find returns the one classe carrying the id. */
  lemma FindClasseUnique(cs: seq<Classe>, c: Classe)
    requires DistinctClasseIds(cs)
    requires c in cs
    ensures FindClasse(cs, c.id) == Some(c)
  {
    var r := FindClasse(cs, c.id);
    var i :| 0 <= i < |cs| && cs[i] == c;
    var j :| 0 <= j < |cs| && cs[j] == r.value;
    if i < j {
      assert cs[i].id != cs[j].id;
    } else if j < i {
      assert cs[j].id != cs[i].id;
    }
  }

  /** Number of students whose classeId is the given id. */
  function CountInClasse(ss: seq<Student>, classeId: string): nat {
    |StudentsOfClasse(ss, classeId)|
  }
}

=== FILE: sidebar.dfy ===
/** The role-to-page table of the side menu (src/components/layout/Sidebar.tsx).
    Every item is drawn; those the role may not open are disabled, and the
    click handler checks the role again. */
module SideMenu {
  import opened Common

  datatype Role = Admin | Directeur | Surveillant | Formateur

  /** The role names as the user object carries them. */
  function RoleName(r: Role): string {
    match r
    case Admin => "admin"
    case Directeur => "directeur"
    case Surveillant => "surveillant"
    case Formateur => "formateur"
  }

  /** The six pages of the application and their paths. */
  datatype Page = Home | Students | AbsenceEntry | AbsenceAdmin | Statistics | About

  function PathOf(p: Page): string {
    match p
    case Home => "/"
    case Students => "/students"
    case AbsenceEntry => "/absence-entry"
    case AbsenceAdmin => "/absence-admin"
    case Statistics => "/statistics"
    case About => "/about"
  }

  /** The page a path names, if any. */
  function PageAt(path: string): (r: Option<Page>)
    ensures r.Some? ==> PathOf(r.value) == path
    ensures r.None? ==> forall p :: PathOf(p) != path
  {
    if path == "/" then Some(Home)
    else if path == "/students" then Some(Students)
    else if path == "/absence-entry" then Some(AbsenceEntry)
    else if path == "/absence-admin" then Some(AbsenceAdmin)
    else if path == "/statistics" then Some(Statistics)
    else if path == "/about" then Some(About)
    else None
  }

  datatype MenuItem = MenuItem(title: string, page: Page, roles: seq<Role>)

  const Everyone: seq<Role> := [Admin, Directeur, Surveillant, Formateur]
  const Staff: seq<Role> := [Admin, Directeur, Surveillant]

  /** menuItems (lines 22-59). */
  const MenuItems: seq<MenuItem> := [
    MenuItem("Dashboard", Home, Everyone),
    MenuItem("Gestion Stagiaires", Students, Staff),
    MenuItem("Saisie Absences", AbsenceEntry, [Formateur]),
    MenuItem("Admin Absences", AbsenceAdmin, Staff),
    MenuItem("Statistiques", Statistics, Staff),
    MenuItem("À propos", About, Everyone)
  ]

  /** `item.roles.includes(user.role)`: the item is enabled for the role. */
  predicate Accessible(item: MenuItem, role: Role) {
    role in item.roles
  }

  /** filteredMenuItems (lines 61-63): the enabled items, in menu order. */
  function FilteredMenuItems(role: Role): (r: seq<MenuItem>)
    ensures forall item :: item in r <==> item in MenuItems && Accessible(item, role)
  {
    Keep(MenuItems, (item: MenuItem) => Accessible(item, role))
  }

  lemma FilteredMenuKeepsOrder(role: Role)
    ensures IsSubsequence(FilteredMenuItems(role), MenuItems)
  {
    KeepIsSubsequence(MenuItems, (item: MenuItem) => Accessible(item, role));
  }

  /** handleNavigation (lines 65-69): the path navigated to, if any. */
  function HandleNavigation(role: Role, path: string, roles: seq<Role>): (r: Option<string>)
    ensures r.Some? <==> role in roles
    ensures r.Some? ==> r.value == path
  {
    if role in roles then Some(path) else None
  }

  /** Some enabled menu item leads the role to the page. */
  predicate MenuReaches(role: Role, page: Page) {
    exists i :: 0 <= i < |MenuItems| && MenuItems[i].page == page && Accessible(MenuItems[i], role)
  }

  /** The roles of the one menu item for each page. */
  function RolesFor(page: Page): seq<Role> {
    match page
    case Home => Everyone
    case Students => Staff
    case AbsenceEntry => [Formateur]
    case AbsenceAdmin => Staff
    case Statistics => Staff
    case About => Everyone
  }

  /** Each page has exactly one menu item. */
  lemma {:induction false} MenuReachesRolesFor(role: Role, page: Page)
    ensures MenuReaches(role, page) <==> role in RolesFor(page)
  {
    var i := match page
      case Home => 0 case Students => 1 case AbsenceEntry => 2
      case AbsenceAdmin => 3 case Statistics => 4 case About => 5;
    assert MenuItems[i].page == page && MenuItems[i].roles == RolesFor(page);
    forall j | 0 <= j < |MenuItems| && MenuItems[j].page == page
      ensures j == i
    {
    }
  }

  /** The table spelled out: the dashboard and the about page for everyone,
      the students, absence-admin and statistics pages for exactly the three
      staff roles, and the absence-entry page for formateurs only, so that
      no role has both absence pages. */
  lemma {:induction false} AccessTable(role: Role)
    ensures MenuReaches(role, Home) && MenuReaches(role, About)
    ensures MenuReaches(role, Students) <==> role != Formateur
    ensures MenuReaches(role, AbsenceAdmin) <==> role != Formateur
    ensures MenuReaches(role, Statistics) <==> role != Formateur
    ensures MenuReaches(role, AbsenceEntry) <==> role == Formateur
    ensures !(MenuReaches(role, AbsenceEntry) && MenuReaches(role, AbsenceAdmin))
  {
    MenuReachesRolesFor(role, Home);
    MenuReachesRolesFor(role, About);
    MenuReachesRolesFor(role, Students);
    MenuReachesRolesFor(role, AbsenceAdmin);
    MenuReachesRolesFor(role, Statistics);
    MenuReachesRolesFor(role, AbsenceEntry);
  }
}

=== FILE: storage.dfy ===
/** The browser's localStorage as seen by the application: one JSON array per
    key. A key is never written, holds a parsed array, or holds text that
    JSON.parse rejects. */
module Storage {
  import opened Entities

  datatype Slot<T> = Unset | Stored(items: seq<T>) | Unparsable

  /** A value, or the exception a JSON.parse failure raises. */
  datatype Result<T> = Ok(value: T) | Thrown

  /** `data ? JSON.parse(data) : []` (src/utils/studentStorage.ts:57-58): a key
      never written reads as the empty list; unparsable text throws. */
  function Load<T>(s: Slot<T>): (r: Result<seq<T>>)
    ensures s.Unset? ==> r == Ok([])
    ensures r.Thrown? <==> s.Unparsable?
  {
    match s
    case Unset => Ok([])
    case Stored(xs) => Ok(xs)
    case Unparsable => Thrown
  }

  /** Writing a list and reading it back gives the same list. */
  lemma SaveThenLoad<T>(xs: seq<T>)
    ensures Load(Stored(xs)) == Ok(xs)
  {
  }

  class LocalStorage {
    var filieres: Slot<Filiere>            // 'absenta_filieres'
    var classes: Slot<Classe>              // 'absenta_classes'
    var students: Slot<Student>            // 'absenta_students'
    var absences: Slot<Absence>            // 'absenta_absences'
    var sessionLog: Slot<SessionRecord>    // 'absences', written by AbsenceEntry only

    /** A browser profile in which nothing has been stored yet. */
    constructor ()
      ensures filieres == Unset && classes == Unset && students == Unset
      ensures absences == Unset && sessionLog == Unset
    {
      filieres, classes, students, absences, sessionLog := Unset, Unset, Unset, Unset, Unset;
    }
  }
}

=== FILE: student_data.dfy ===
/** The useStudentData hook (src/hooks/useStudentData.ts): snapshots of the
    three collections, the save handlers that choose between update and add,
    the delete guards, and the multi-delete loop. Every hook instance has its
    own snapshots over the one shared localStorage. */
module StudentDataHook {
  import opened Common
  import opened Entities
  import opened Storage
  import opened Queries
  import opened StudentStorage

  // ======================= save dispatch (lines 35-102)

  /** The filières key after handleSaveFiliere: a truthy editingItem selects
      updateFiliere(editingItem.id, data), otherwise addFiliere(data). */
  function FilieresAfterSave(s: Slot<Filiere>, data: Bag, editingItem: Option<Bag>, id: string, now: string): Slot<Filiere> {
    if editingItem.Some? then Updated(s, FiliereId, Lookup(editingItem.value, "id"), MergeFiliere, FilierePatchFromBag(data))
    else Appended(s, NewFiliere(FiliereFieldsFromBag(data), id, now))
  }

  function ClassesAfterSave(s: Slot<Classe>, data: Bag, editingItem: Option<Bag>, id: string, now: string): Slot<Classe> {
    if editingItem.Some? then Updated(s, ClasseId, Lookup(editingItem.value, "id"), MergeClasse, ClassePatchFromBag(data))
    else Appended(s, NewClasse(ClasseFieldsFromBag(data), id, now))
  }

  function StudentsAfterSave(s: Slot<Student>, data: Bag, editingItem: Option<Bag>, id: string, now: string): Slot<Student> {
    if editingItem.Some? then Updated(s, StudentId, Lookup(editingItem.value, "id"), MergeStudent, StudentPatchFromBag(data))
    else Appended(s, NewStudent(StudentFieldsFromBag(data), id, now))
  }

  /** Saving an edit whose form still carries the edited record's id (the
      form starts from the record) keeps every classe's id where it was. */
  lemma {:induction false} EditKeepsClasseIds(s: Slot<Classe>, data: Bag, item: Bag, id: string, now: string)
    requires !s.Unparsable?
    requires "id" in data ==> "id" in item && data["id"] == item["id"]
    ensures var before, after := Load(s).value, Load(ClassesAfterSave(s, data, Some(item), id, now)).value;
      |after| == |before| && forall j :: 0 <= j < |before| ==> after[j].id == before[j].id
  {
    var xs := Load(s).value;
    var i := MatchIndex(xs, ClasseId, Lookup(item, "id"));
    if i != -1 {
      assert MergeClasse(xs[i], ClassePatchFromBag(data)).id == xs[i].id;
    }
  }

  // ======================= delete guards (lines 120-164)

  /** The guard of handleDelete over the hook's snapshots: a filière with a
      classe, or a classe with a student, is refused; students never are. */
  function DeleteRefused(kind: EntityKind, id: string, classes: seq<Classe>, students: seq<Student>): (r: bool)
    ensures kind == FiliereKind ==> (r <==> exists c :: c in classes && c.filiereId == id)
    ensures kind == ClasseKind ==> (r <==> exists s :: s in students && s.classeId == id)
    ensures kind == StudentKind ==> !r
  {
    match kind
    case FiliereKind =>
      var owned := ClassesOfFiliere(classes, id);
      assert |owned| > 0 ==> owned[0] in owned;
      |owned| > 0
    case ClasseKind =>
      var owned := StudentsOfClasse(students, id);
      assert |owned| > 0 ==> owned[0] in owned;
      |owned| > 0
    case StudentKind => false
  }

  datatype DeleteOutcome = Blocked | Deleted | Failed

  /** Whether the store delete of that kind reads every key it needs. */
  predicate DeleteCompletes(kind: EntityKind, fs: Slot<Filiere>, cs: Slot<Classe>, ss: Slot<Student>) {
    match kind
    case FiliereKind => !fs.Unparsable? && !cs.Unparsable? && !ss.Unparsable?
    case ClasseKind => !cs.Unparsable? && !ss.Unparsable?
    case StudentKind => !ss.Unparsable?
  }

  /** When the hook's classes snapshot is what the store holds and the guard
      lets a filière delete through, the cascade leaves the classes key as it
      was, whatever the other keys hold. */
  lemma GuardedFiliereDeleteLosesNoClasse(fs: Slot<Filiere>, cs: Slot<Classe>, classes: seq<Classe>, students: seq<Student>, id: string)
    requires cs == Stored(classes)
    requires !DeleteRefused(FiliereKind, id, classes, students)
    ensures ClassesAfterDeleteFiliere(fs, cs, id) == cs
  {
    GuardedFiliereDeleteKeepsClasses(classes, id);
  }

  /** Likewise, with an up-to-date students snapshot, a classe delete the
      guard lets through leaves the students key as it was. */
  lemma GuardedClasseDeleteLosesNoStudent(cs: Slot<Classe>, ss: Slot<Student>, classes: seq<Classe>, students: seq<Student>, id: string)
    requires ss == Stored(students)
    requires !DeleteRefused(ClasseKind, id, classes, students)
    ensures StudentsAfterDeleteClasse(cs, ss, id) == ss
  {
    GuardedClasseDeleteKeepsStudents(students, id);
  }

  // ======================= multi-delete (lines 166-186)

  /** The students whose id is none of ids. */
  function StudentsExcept(ss: seq<Student>, ids: seq<string>): (r: seq<Student>)
    ensures forall s :: s in r <==> s in ss && s.id !in ids
  {
    Keep(ss, (s: Student) => s.id !in ids)
  }

  /** The students key after `ids.forEach(deleteStudent)`: nothing is written
      for an empty list, and the first read that throws stops the loop. */
  function StudentsAfterDeleteMany(s: Slot<Student>, ids: seq<string>): Slot<Student> {
    if ids == [] || s.Unparsable? then s else Stored(StudentsExcept(Load(s).value, ids))
  }

  lemma {:induction false} ExceptNone(xs: seq<Student>)
    ensures StudentsExcept(xs, []) == xs
  {
    KeepAll(xs, (s: Student) => s.id !in []);
  }

  /** Deleting one more id after a batch is deleting the longer batch. */
  lemma {:induction false} ExceptStep(xs: seq<Student>, ids: seq<string>, id: string)
    ensures StudentsExcept(xs, ids + [id]) == WithoutStudent(StudentsExcept(xs, ids), id)
  {
    if xs != [] {
      ExceptStep(xs[1..], ids, id);
      var rest := StudentsExcept(xs[1..], ids);
      if xs[0].id !in ids {
        var t := [xs[0]] + rest;
        assert t[0] == xs[0] && t[1..] == rest;
      }
    }
  }

  /** The multi-delete keeps the survivors in their order. */
  lemma DeleteManyKeepsOrder(xs: seq<Student>, ids: seq<string>)
    ensures IsSubsequence(StudentsExcept(xs, ids), xs)
  {
    KeepIsSubsequence(xs, (s: Student) => s.id !in ids);
  }

  // ======================= the hook's state

  class StudentData {
    const storage: LocalStorage
    var filieres: seq<Filiere>
    var classes: seq<Classe>
    var students: seq<Student>
    /** Bumped by forceRefresh; the effect keyed on it reloads the snapshots. */
    var refreshKey: nat

    constructor (storage: LocalStorage)
      ensures this.storage == storage
      ensures filieres == [] && classes == [] && students == [] && refreshKey == 0
    {
      this.storage := storage;
      filieres, classes, students := [], [], [];
      refreshKey := 0;
    }

    /** loadData (lines 18-29): read the three keys, then set the snapshots;
        a read that throws leaves them as they were. */
    method LoadData() returns (r: Result<()>)
      modifies this`filieres, this`classes, this`students
      ensures r.Thrown? <==> storage.filieres.Unparsable? || storage.classes.Unparsable? || storage.students.Unparsable?
      ensures r.Ok? ==> filieres == Load(storage.filieres).value && classes == Load(storage.classes).value
                        && students == Load(storage.students).value
      ensures r.Thrown? ==> filieres == old(filieres) && classes == old(classes) && students == old(students)
    {
      var filieresData := GetFilieres(storage);
      if filieresData.Thrown? {
        return Thrown;
      }
      var classesData := GetClasses(storage);
      if classesData.Thrown? {
        return Thrown;
      }
      var studentsData := GetStudents(storage);
      if studentsData.Thrown? {
        return Thrown;
      }
      filieres, classes, students := filieresData.value, classesData.value, studentsData.value;
      return Ok(());
    }

    /** The effect body (lines 12-16): seed the filières, then reload. */
    method Reload(id1: string, now1: string, id2: string, now2: string) returns (r: Result<()>)
      modifies storage`filieres, this`filieres, this`classes, this`students
      ensures storage.filieres == Seeded(old(storage.filieres), id1, now1, id2, now2)
      ensures r.Ok? <==> !old(storage.filieres).Unparsable? && !storage.classes.Unparsable? && !storage.students.Unparsable?
      ensures r.Ok? ==> filieres == Load(storage.filieres).value && classes == Load(storage.classes).value
                        && students == Load(storage.students).value
    {
      r := InitializeDefaultData(storage, id1, now1, id2, now2);
      if r.Thrown? {
        return;
      }
      r := LoadData();
    }

    method HandleSaveFiliere(data: Bag, editingItem: Option<Bag>, id: string, now: string) returns (ok: bool)
      modifies storage`filieres, this`refreshKey
      ensures storage.filieres == FilieresAfterSave(old(storage.filieres), data, editingItem, id, now)
      ensures ok <==> !old(storage.filieres).Unparsable?
      ensures refreshKey == old(refreshKey) + (if ok then 1 else 0)
    {
      if editingItem.Some? {
        var updated := UpdateFiliere(storage, Lookup(editingItem.value, "id"), FilierePatchFromBag(data));
        if updated.Thrown? {
          return false;
        }
      } else {
        var added := AddFiliere(storage, FiliereFieldsFromBag(data), id, now);
        if added.Thrown? {
          return false;
        }
      }
      refreshKey := refreshKey + 1;
      return true;
    }

    method HandleSaveClasse(data: Bag, editingItem: Option<Bag>, id: string, now: string) returns (ok: bool)
      modifies storage`classes, this`refreshKey
      ensures storage.classes == ClassesAfterSave(old(storage.classes), data, editingItem, id, now)
      ensures ok <==> !old(storage.classes).Unparsable?
      ensures refreshKey == old(refreshKey) + (if ok then 1 else 0)
    {
      if editingItem.Some? {
        var updated := UpdateClasse(storage, Lookup(editingItem.value, "id"), ClassePatchFromBag(data));
        if updated.Thrown? {
          return false;
        }
      } else {
        var added := AddClass(storage, ClasseFieldsFromBag(data), id, now);
        if added.Thrown? {
          return false;
        }
      }
      refreshKey := refreshKey + 1;
      return true;
    }

    method HandleSaveStudent(data: Bag, editingItem: Option<Bag>, id: string, now: string) returns (ok: bool)
      modifies storage`students, this`refreshKey
      ensures storage.students == StudentsAfterSave(old(storage.students), data, editingItem, id, now)
      ensures ok <==> !old(storage.students).Unparsable?
      ensures refreshKey == old(refreshKey) + (if ok then 1 else 0)
    {
      if editingItem.Some? {
        var updated := UpdateStudent(storage, Lookup(editingItem.value, "id"), StudentPatchFromBag(data));
        if updated.Thrown? {
          return false;
        }
      } else {
        var added := AddStudent(storage, StudentFieldsFromBag(data), id, now);
        if added.Thrown? {
          return false;
        }
      }
      refreshKey := refreshKey + 1;
      return true;
    }

    /** handleAddStudentToClasse (lines 104-118): always an add. */
    method HandleAddStudentToClasse(data: StudentFields, id: string, now: string)
      modifies storage`students, this`refreshKey
      ensures storage.students == Appended(old(storage.students), NewStudent(data, id, now))
      ensures refreshKey == old(refreshKey) + (if old(storage.students).Unparsable? then 0 else 1)
    {
      var added := AddStudent(storage, data, id, now);
      if added.Ok? {
        refreshKey := refreshKey + 1;
      }
    }

    /** handleDelete (lines 120-164). The guard reads this instance's
        snapshots, which may lag behind the store. */
    method HandleDelete(kind: EntityKind, id: string) returns (outcome: DeleteOutcome)
      modifies storage`filieres, storage`classes, storage`students, this`refreshKey
      ensures DeleteRefused(kind, id, classes, students) ==>
        outcome == Blocked && refreshKey == old(refreshKey)
        && storage.filieres == old(storage.filieres) && storage.classes == old(storage.classes)
        && storage.students == old(storage.students)
      ensures !DeleteRefused(kind, id, classes, students) ==>
        (outcome == Deleted <==> DeleteCompletes(kind, old(storage.filieres), old(storage.classes), old(storage.students)))
        && outcome != Blocked
      ensures refreshKey == old(refreshKey) + (if outcome == Deleted then 1 else 0)
      ensures kind == FiliereKind && !DeleteRefused(kind, id, classes, students) ==>
        storage.filieres == FilieresAfterDeleteFiliere(old(storage.filieres), id)
        && storage.classes == ClassesAfterDeleteFiliere(old(storage.filieres), old(storage.classes), id)
        && storage.students == StudentsAfterDeleteFiliere(old(storage.filieres), old(storage.classes), old(storage.students), id)
      ensures kind == ClasseKind && !DeleteRefused(kind, id, classes, students) ==>
        storage.filieres == old(storage.filieres)
        && storage.classes == ClassesAfterDeleteClasse(old(storage.classes), id)
        && storage.students == StudentsAfterDeleteClasse(old(storage.classes), old(storage.students), id)
      ensures kind == StudentKind ==>
        storage.filieres == old(storage.filieres) && storage.classes == old(storage.classes)
        && storage.students == StudentsAfterDeleteStudent(old(storage.students), id)
    {
      var r: Result<()>;
      match kind {
        case FiliereKind =>
          if |ClassesOfFiliere(classes, id)| > 0 {
            return Blocked;
          }
          r := DeleteFiliere(storage, id);
        case ClasseKind =>
          if |StudentsOfClasse(students, id)| > 0 {
            return Blocked;
          }
          r := DeleteClasse(storage, id);
        case StudentKind =>
          r := DeleteStudent(storage, id);
      }
      if r.Thrown? {
        return Failed;
      }
      refreshKey := refreshKey + 1;
      return Deleted;
    }

    /** handleDeleteStudents (lines 166-186): deleteStudent for each id in
        turn. */
    method HandleDeleteStudents(ids: seq<string>) returns (ok: bool)
      modifies storage`students, this`refreshKey
      ensures storage.students == StudentsAfterDeleteMany(old(storage.students), ids)
      ensures ok <==> ids == [] || !old(storage.students).Unparsable?
      ensures refreshKey == old(refreshKey) + (if ok then 1 else 0)
    {
      ghost var xs := if storage.students.Unparsable? then [] else Load(storage.students).value;
      var i := 0;
      while i < |ids|
        invariant 0 <= i <= |ids|
        invariant i == 0 ==> storage.students == old(storage.students)
        invariant 0 < i ==> !old(storage.students).Unparsable?
                            && storage.students == Stored(StudentsExcept(xs, ids[..i]))
        invariant refreshKey == old(refreshKey)
      {
        var r := DeleteStudent(storage, ids[i]);
        if r.Thrown? {
          return false;
        }
        if i == 0 {
          ExceptNone(xs);
        }
        ExceptStep(xs, ids[..i], ids[i]);
        assert ids[..i + 1] == ids[..i] + [ids[i]];
        i := i + 1;
      }
      assert ids[..|ids|] == ids;
      refreshKey := refreshKey + 1;
      return true;
    }
  }

  // ======================= the add-classe-to-filière path

  /** The editingItem handleAddClasseToFiliere installs: `{ filiereId }`. */
  function AddClasseItem(filiereId: string): Bag {
    map["filiereId" := filiereId]
  }

  /** As written: the item is truthy, so the save takes the update branch
      with an undefined id; nothing matches, nothing is written, and the
      save still reports success. */
  lemma AddClasseToFiliereSaveIsLost(s: Slot<Classe>, data: Bag, filiereId: string, id: string, now: string)
    ensures ClassesAfterSave(s, data, Some(AddClasseItem(filiereId)), id, now) == s
  {
    assert Lookup(AddClasseItem(filiereId), "id") == None;
  }

  /** The evident intent: an editingItem without an id is a prefill, not an
      edit, so the save adds. */
  function IntendedClassesAfterSave(s: Slot<Classe>, data: Bag, editingItem: Option<Bag>, id: string, now: string): (r: Slot<Classe>)
    ensures editingItem.Some? && "id" in editingItem.value ==> r == ClassesAfterSave(s, data, editingItem, id, now)
    ensures !s.Unparsable? && (editingItem.None? || "id" !in editingItem.value) ==>
      Load(r).Ok? && |Load(r).value| == |Load(s).value| + 1
  {
    if editingItem.Some? && "id" in editingItem.value then ClassesAfterSave(s, data, editingItem, id, now)
    else Appended(s, NewClasse(ClasseFieldsFromBag(data), id, now))
  }

  /** With the intended dispatch, the add-classe path appends one classe
      owned by the filière the form carries. */
  lemma IntendedAddClasseToFiliere(s: Slot<Classe>, data: Bag, filiereId: string, id: string, now: string)
    requires !s.Unparsable?
    requires "filiereId" in data && data["filiereId"] == filiereId
    ensures var before, after := Load(s).value, Load(IntendedClassesAfterSave(s, data, Some(AddClasseItem(filiereId)), id, now)).value;
      |after| == |before| + 1 && after[..|before|] == before
      && after[|before|].filiereId == filiereId && after[|before|].id == id
  {
    AppendedKeepsPrefix(s, NewClasse(ClasseFieldsFromBag(data), id, now));
  }
}

=== FILE: student_overview.dfy ===
/** The overview screen (src/components/students/StudentOverview.tsx): the
    student search with its filière filter, the filière search, and the
    counts on each filière card. */
module Overview {
  import opened Common
  import opened Entities
  import opened Queries

  /** The value of the filière selector that means "every filière". */
  const AllFilieres: string := "all"

  /** The classe lookup of line 39: the student's first classe with that id
      belongs to the selected filière. */
  predicate InSelectedFiliere(classes: seq<Classe>, s: Student, selectedFiliere: string) {
    var c := FindClasse(classes, s.classeId);
    c.Some? && c.value.filiereId == selectedFiliere
  }

  /** The test of lines 34-42 for one student. */
  predicate ShownStudent(classes: seq<Classe>, s: Student, searchTerm: string, selectedFiliere: string) {
    MatchesSearch(s, searchTerm) && (selectedFiliere == AllFilieres || InSelectedFiliere(classes, s, selectedFiliere))
  }

  /** filteredStudents: under 'all' the search alone decides; otherwise the
      first classe carrying the student's classeId must belong to the
      selected filière. */
  function FilteredStudents(students: seq<Student>, classes: seq<Classe>, searchTerm: string, selectedFiliere: string): (r: seq<Student>)
    ensures selectedFiliere == AllFilieres ==> forall s :: s in r <==> s in students && MatchesSearch(s, searchTerm)
    ensures selectedFiliere != AllFilieres ==> forall s :: s in r <==>
      s in students && MatchesSearch(s, searchTerm)
      && FindClasse(classes, s.classeId).Some? && FindClasse(classes, s.classeId).value.filiereId == selectedFiliere
  {
    Keep(students, (s: Student) => ShownStudent(classes, s, searchTerm, selectedFiliere))
  }

  /** The search keeps the students in their stored order. */
  lemma FilteredStudentsKeepOrder(students: seq<Student>, classes: seq<Classe>, searchTerm: string, selectedFiliere: string)
    ensures IsSubsequence(FilteredStudents(students, classes, searchTerm, selectedFiliere), students)
  {
    KeepIsSubsequence(students, (s: Student) => ShownStudent(classes, s, searchTerm, selectedFiliere));
  }

  /** With an empty term and 'all' selected, every student is listed. */
  lemma EmptySearchListsEveryone(students: seq<Student>, classes: seq<Classe>)
    ensures FilteredStudents(students, classes, "", AllFilieres) == students
  {
    forall s | s in students
      ensures ShownStudent(classes, s, "", AllFilieres)
    {
      EmptySearchMatchesAll(s);
    }
    KeepAll(students, (s: Student) => ShownStudent(classes, s, "", AllFilieres));
  }

  /** When classe ids are distinct, the filière filter with an empty term
      lists exactly the students the filière's card counts. */
  lemma FiliereFilterAgreesWithCard(students: seq<Student>, classes: seq<Classe>, filiereId: string)
    requires DistinctClasseIds(classes)
    requires filiereId != AllFilieres
    ensures forall s :: s in FilteredStudents(students, classes, "", filiereId) <==> s in FiliereStudents(students, classes, filiereId)
  {
    forall s | s in students
      ensures InSelectedFiliere(classes, s, filiereId) <==> exists c :: c in classes && c.filiereId == filiereId && c.id == s.classeId
    {
      EmptySearchMatchesAll(s);
      if c :| c in classes && c.filiereId == filiereId && c.id == s.classeId {
        FindClasseUnique(classes, c);
      }
    }
    forall s | s in students
      ensures MatchesSearch(s, "")
    {
      EmptySearchMatchesAll(s);
    }
  }

  /** `filiere.nom` or `filiere.code` contains the term, ignoring case. */
  predicate FiliereMatches(f: Filiere, searchTerm: string) {
    Includes(Lower(f.nom), Lower(searchTerm)) || Includes(Lower(f.code), Lower(searchTerm))
  }

  /** filteredFilieres (lines 45-48). */
  function FilteredFilieres(filieres: seq<Filiere>, searchTerm: string): (r: seq<Filiere>)
    ensures forall f :: f in r <==> f in filieres && FiliereMatches(f, searchTerm)
  {
    Keep(filieres, (f: Filiere) => FiliereMatches(f, searchTerm))
  }

  /** The cards drawn (line 159): all filières while the term is empty,
      the filtered ones otherwise. */
  function DisplayedFilieres(filieres: seq<Filiere>, searchTerm: string): (r: seq<Filiere>)
    ensures searchTerm == "" ==> r == filieres
    ensures searchTerm != "" ==> r == FilteredFilieres(filieres, searchTerm)
  {
    if searchTerm != "" then FilteredFilieres(filieres, searchTerm) else filieres
  }

  /** The `searchTerm ?` choice changes nothing: the empty term already
      matches every filière, so the cards are always the filtered list. */
  lemma DisplayedIsFiltered(filieres: seq<Filiere>, searchTerm: string)
    ensures DisplayedFilieres(filieres, searchTerm) == FilteredFilieres(filieres, searchTerm)
  {
    if searchTerm == "" {
      assert Lower("") == "";
      forall f | f in filieres
        ensures FiliereMatches(f, searchTerm)
      {
        assert "" <= Lower(f.nom);
      }
      KeepAll(filieres, (f: Filiere) => FiliereMatches(f, searchTerm));
    }
  }

  /** The two numbers of a filière card (lines 160-164, 238-239). */
  datatype CardCounts = CardCounts(classCount: nat, studentCount: nat)

  function Card(f: Filiere, classes: seq<Classe>, students: seq<Student>): (r: CardCounts)
    ensures r.classCount == |ClassesOfFiliere(classes, f.id)|
    ensures r.studentCount == |FiliereStudents(students, classes, f.id)|
    ensures r.classCount <= |classes| && r.studentCount <= |students|
  {
    CardCounts(|ClassesOfFiliere(classes, f.id)|, |FiliereStudents(students, classes, f.id)|)
  }

  /** The found-students section (line 251) appears only for a non-empty
      term with at least one hit. */
  function FoundSectionShown(students: seq<Student>, classes: seq<Classe>, searchTerm: string, selectedFiliere: string): (r: bool)
    ensures r <==> searchTerm != "" && exists s :: s in students && ShownStudent(classes, s, searchTerm, selectedFiliere)
  {
    var found := FilteredStudents(students, classes, searchTerm, selectedFiliere);
    assert |found| > 0 ==> found[0] in found;
    searchTerm != "" && |found| > 0
  }
}

=== FILE: student_storage.dfy ===
/** The entity store of src/utils/studentStorage.ts. Every operation reads a
    collection from its localStorage key, changes the array, and writes it
    back. Each slot-level function below gives the new content of a key; the
    methods do the work step by step and are proved to produce exactly it. */
module StudentStorage {
  import opened Common
  import opened Entities
  import opened Storage
  import opened Queries

  // ======================= getters (lines 56-59, 105-108, 148-151, 191-194)

  function GetFilieres(ls: LocalStorage): (r: Result<seq<Filiere>>)
    reads ls
    ensures ls.filieres.Unset? ==> r == Ok([])
    ensures r.Thrown? <==> ls.filieres.Unparsable?
  {
    Load(ls.filieres)
  }

  function GetClasses(ls: LocalStorage): (r: Result<seq<Classe>>)
    reads ls
    ensures ls.classes.Unset? ==> r == Ok([])
    ensures r.Thrown? <==> ls.classes.Unparsable?
  {
    Load(ls.classes)
  }

  function GetStudents(ls: LocalStorage): (r: Result<seq<Student>>)
    reads ls
    ensures ls.students.Unset? ==> r == Ok([])
    ensures r.Thrown? <==> ls.students.Unparsable?
  {
    Load(ls.students)
  }

  function GetAbsences(ls: LocalStorage): (r: Result<seq<Absence>>)
    reads ls
    ensures ls.absences.Unset? ==> r == Ok([])
    ensures r.Thrown? <==> ls.absences.Unparsable?
  {
    Load(ls.absences)
  }

  /** getStudentsByClasse (lines 186-188). */
  function GetStudentsByClasse(ls: LocalStorage, classeId: string): (r: Result<seq<Student>>)
    reads ls
    ensures r.Thrown? <==> ls.students.Unparsable?
    ensures r.Ok? ==> forall s :: s in r.value <==> s in Load(ls.students).value && s.classeId == classeId
  {
    match GetStudents(ls)
    case Thrown => Thrown
    case Ok(ss) => Ok(StudentsOfClasse(ss, classeId))
  }

  // ======================= savers (lines 61-63, 110-112, 153-155, 196-198)

  method SaveFilieres(ls: LocalStorage, xs: seq<Filiere>)
    modifies ls`filieres
    ensures ls.filieres == Stored(xs)
  {
    ls.filieres := Stored(xs);
  }

  method SaveClasses(ls: LocalStorage, xs: seq<Classe>)
    modifies ls`classes
    ensures ls.classes == Stored(xs)
  {
    ls.classes := Stored(xs);
  }

  method SaveStudents(ls: LocalStorage, xs: seq<Student>)
    modifies ls`students
    ensures ls.students == Stored(xs)
  {
    ls.students := Stored(xs);
  }

  method SaveAbsences(ls: LocalStorage, xs: seq<Absence>)
    modifies ls`absences
    ensures ls.absences == Stored(xs)
  {
    ls.absences := Stored(xs);
  }

  // ======================= add: read, push, write back

  /** The key's content after `list.push(x)` and a save; unchanged when the
      read throws. */
  function Appended<T>(s: Slot<T>, x: T): (r: Slot<T>)
    ensures s.Unparsable? ==> r == s
    ensures !s.Unparsable? ==>
      var old_ := Load(s).value;
      Load(r).Ok? && Load(r).value == old_ + [x]
  {
    if s.Unparsable? then s else Stored(Load(s).value + [x])
  }

  /** An add puts exactly one record at the end and keeps the earlier ones. */
  lemma AppendedKeepsPrefix<T>(s: Slot<T>, x: T)
    requires !s.Unparsable?
    ensures var before, after := Load(s).value, Load(Appended(s, x)).value;
      |after| == |before| + 1 && after[..|before|] == before && after[|before|] == x
  {
    var before := Load(s).value;
    assert (before + [x])[..|before|] == before;
  }

  function AddResult<T>(s: Slot<T>, x: T): Result<T> {
    if s.Unparsable? then Thrown else Ok(x)
  }

  method AddFiliere(ls: LocalStorage, filiere: FiliereFields, id: string, now: string) returns (r: Result<Filiere>)
    modifies ls`filieres
    ensures ls.filieres == Appended(old(ls.filieres), NewFiliere(filiere, id, now))
    ensures r == AddResult(old(ls.filieres), NewFiliere(filiere, id, now))
  {
    var got := GetFilieres(ls);
    if got.Thrown? {
      return Thrown;
    }
    var filieres := got.value;
    var newFiliere := NewFiliere(filiere, id, now);
    filieres := filieres + [newFiliere];
    SaveFilieres(ls, filieres);
    return Ok(newFiliere);
  }

  method AddClass(ls: LocalStorage, classe: ClasseFields, id: string, now: string) returns (r: Result<Classe>)
    modifies ls`classes
    ensures ls.classes == Appended(old(ls.classes), NewClasse(classe, id, now))
    ensures r == AddResult(old(ls.classes), NewClasse(classe, id, now))
  {
    var got := GetClasses(ls);
    if got.Thrown? {
      return Thrown;
    }
    var classes := got.value;
    var newClasse := NewClasse(classe, id, now);
    classes := classes + [newClasse];
    SaveClasses(ls, classes);
    return Ok(newClasse);
  }

  method AddStudent(ls: LocalStorage, student: StudentFields, id: string, now: string) returns (r: Result<Student>)
    modifies ls`students
    ensures ls.students == Appended(old(ls.students), NewStudent(student, id, now))
    ensures r == AddResult(old(ls.students), NewStudent(student, id, now))
  {
    var got := GetStudents(ls);
    if got.Thrown? {
      return Thrown;
    }
    var students := got.value;
    var newStudent := NewStudent(student, id, now);
    students := students + [newStudent];
    SaveStudents(ls, students);
    return Ok(newStudent);
  }

  method AddAbsence(ls: LocalStorage, absence: AbsenceFields, id: string, now: string) returns (r: Result<Absence>)
    modifies ls`absences
    ensures ls.absences == Appended(old(ls.absences), NewAbsence(absence, id, now))
    ensures r == AddResult(old(ls.absences), NewAbsence(absence, id, now))
  {
    var got := GetAbsences(ls);
    if got.Thrown? {
      return Thrown;
    }
    var absences := got.value;
    var newAbsence := NewAbsence(absence, id, now);
    absences := absences + [newAbsence];
    SaveAbsences(ls, absences);
    return Ok(newAbsence);
  }

  // ======================= update: findIndex, merge at that index, write back

  /** `list.findIndex(x => x.id === id)`; an undefined id matches nothing. */
  function MatchIndex<T>(xs: seq<T>, key: T -> string, id: Option<string>): (i: int)
    ensures -1 <= i < |xs|
    ensures i == -1 <==> id.None? || forall j :: 0 <= j < |xs| ==> key(xs[j]) != id.value
    ensures 0 <= i ==> id.Some? && key(xs[i]) == id.value
    ensures 0 <= i ==> forall j :: 0 <= j < i ==> key(xs[j]) != id.value
  {
    if id.None? then -1 else IndexWhere(xs, key, id.value)
  }

  /** The key's content after an update: an unknown id writes nothing; a
      known one replaces the first record with that id by its merge with p. */
  function Updated<T, P>(s: Slot<T>, key: T -> string, id: Option<string>, merge: (T, P) -> T, p: P): (r: Slot<T>)
    ensures s.Unparsable? ==> r == s
    ensures !s.Unparsable? && MatchIndex(Load(s).value, key, id) == -1 ==> r == s
    ensures !s.Unparsable? && MatchIndex(Load(s).value, key, id) != -1 ==>
      var xs, i := Load(s).value, MatchIndex(Load(s).value, key, id);
      Load(r).Ok? && |Load(r).value| == |xs| && Load(r).value[i] == merge(xs[i], p)
      && forall j :: 0 <= j < |xs| && j != i ==> Load(r).value[j] == xs[j]
  {
    if s.Unparsable? then s
    else
      var xs := Load(s).value;
      var i := MatchIndex(xs, key, id);
      if i == -1 then s else Stored(xs[i := merge(xs[i], p)])
  }

  /** What an update returns: the merged record, null for an unknown id, or
      the exception of the read. */
  function UpdateResult<T, P>(s: Slot<T>, key: T -> string, id: Option<string>, merge: (T, P) -> T, p: P): (r: Result<Option<T>>)
    ensures r.Thrown? <==> s.Unparsable?
    ensures r == Ok(None) <==> !s.Unparsable? && MatchIndex(Load(s).value, key, id) == -1
  {
    if s.Unparsable? then Thrown
    else
      var xs := Load(s).value;
      var i := MatchIndex(xs, key, id);
      if i == -1 then Ok(None) else Ok(Some(merge(xs[i], p)))
  }

  method UpdateFiliere(ls: LocalStorage, id: Option<string>, updates: FilierePatch) returns (r: Result<Option<Filiere>>)
    modifies ls`filieres
    ensures ls.filieres == Updated(old(ls.filieres), FiliereId, id, MergeFiliere, updates)
    ensures r == UpdateResult(old(ls.filieres), FiliereId, id, MergeFiliere, updates)
  {
    var got := GetFilieres(ls);
    if got.Thrown? {
      return Thrown;
    }
    var filieres := got.value;
    var index := MatchIndex(filieres, FiliereId, id);
    if index != -1 {
      filieres := filieres[index := MergeFiliere(filieres[index], updates)];
      SaveFilieres(ls, filieres);
      return Ok(Some(filieres[index]));
    }
    return Ok(None);
  }

  method UpdateClasse(ls: LocalStorage, id: Option<string>, updates: ClassePatch) returns (r: Result<Option<Classe>>)
    modifies ls`classes
    ensures ls.classes == Updated(old(ls.classes), ClasseId, id, MergeClasse, updates)
    ensures r == UpdateResult(old(ls.classes), ClasseId, id, MergeClasse, updates)
  {
    var got := GetClasses(ls);
    if got.Thrown? {
      return Thrown;
    }
    var classes := got.value;
    var index := MatchIndex(classes, ClasseId, id);
    if index != -1 {
      classes := classes[index := MergeClasse(classes[index], updates)];
      SaveClasses(ls, classes);
      return Ok(Some(classes[index]));
    }
    return Ok(None);
  }

  method UpdateStudent(ls: LocalStorage, id: Option<string>, updates: StudentPatch) returns (r: Result<Option<Student>>)
    modifies ls`students
    ensures ls.students == Updated(old(ls.students), StudentId, id, MergeStudent, updates)
    ensures r == UpdateResult(old(ls.students), StudentId, id, MergeStudent, updates)
  {
    var got := GetStudents(ls);
    if got.Thrown? {
      return Thrown;
    }
    var students := got.value;
    var index := MatchIndex(students, StudentId, id);
    if index != -1 {
      students := students[index := MergeStudent(students[index], updates)];
      SaveStudents(ls, students);
      return Ok(Some(students[index]));
    }
    return Ok(None);
  }

  // ======================= validateAbsence (lines 212-226)

  datatype Validation = Validation(user: string, time: string)

  /** `{ ...absence, validated: true, validatedBy, validatedAt }` */
  function MarkValidated(a: Absence, v: Validation): (r: Absence)
    ensures r.validated && r.validatedBy == Some(v.user) && r.validatedAt == Some(v.time)
    ensures r.id == a.id && r.studentId == a.studentId && r.sessionId == a.sessionId
    ensures r.date == a.date && r.kind == a.kind && r.formateur == a.formateur
    ensures r.justification == a.justification && r.createdAt == a.createdAt
  {
    a.(validated := true, validatedBy := Some(v.user), validatedAt := Some(v.time))
  }

  method ValidateAbsence(ls: LocalStorage, id: string, validatedBy: string, now: string) returns (r: Result<Option<Absence>>)
    modifies ls`absences
    ensures ls.absences == Updated(old(ls.absences), AbsenceId, Some(id), MarkValidated, Validation(validatedBy, now))
    ensures r == UpdateResult(old(ls.absences), AbsenceId, Some(id), MarkValidated, Validation(validatedBy, now))
  {
    var got := GetAbsences(ls);
    if got.Thrown? {
      return Thrown;
    }
    var absences := got.value;
    var index := MatchIndex(absences, AbsenceId, Some(id));
    if index != -1 {
      absences := absences[index := MarkValidated(absences[index], Validation(validatedBy, now))];
      SaveAbsences(ls, absences);
      return Ok(Some(absences[index]));
    }
    return Ok(None);
  }

  /** Validating never clears the validated flag of any record: it sets it on
      the matched one and copies all others. */
  lemma {:induction false} ValidateIsMonotone(s: Slot<Absence>, id: string, v: Validation)
    requires !s.Unparsable?
    ensures var before, after := Load(s).value, Load(Updated(s, AbsenceId, Some(id), MarkValidated, v)).value;
      |after| == |before| && forall j :: 0 <= j < |before| ==> (before[j].validated ==> after[j].validated)
  {
    var xs := Load(s).value;
    var i := MatchIndex(xs, AbsenceId, Some(id));
    if i != -1 {
      assert MarkValidated(xs[i], v).validated;
    }
  }

  // ======================= deletes: filter and write back, with cascades

  function WithoutFiliere(fs: seq<Filiere>, id: string): (r: seq<Filiere>)
    ensures forall f :: f in r <==> f in fs && f.id != id
  {
    Keep(fs, (f: Filiere) => f.id != id)
  }

  function ClassesOutsideFiliere(cs: seq<Classe>, filiereId: string): (r: seq<Classe>)
    ensures forall c :: c in r <==> c in cs && c.filiereId != filiereId
  {
    Keep(cs, (c: Classe) => c.filiereId != filiereId)
  }

  function WithoutClasse(cs: seq<Classe>, id: string): (r: seq<Classe>)
    ensures forall c :: c in r <==> c in cs && c.id != id
  {
    Keep(cs, (c: Classe) => c.id != id)
  }

  function StudentsOutsideClasse(ss: seq<Student>, classeId: string): (r: seq<Student>)
    ensures forall s :: s in r <==> s in ss && s.classeId != classeId
  {
    Keep(ss, (s: Student) => s.classeId != classeId)
  }

  function WithoutStudent(ss: seq<Student>, id: string): (r: seq<Student>)
    ensures forall s :: s in r <==> s in ss && s.id != id
  {
    Keep(ss, (s: Student) => s.id != id)
  }

  /** deleteFiliere (lines 88-102) writes three keys in turn; a read that
      throws stops it, leaving the earlier writes in place. */
  function FilieresAfterDeleteFiliere(fs: Slot<Filiere>, id: string): Slot<Filiere> {
    if fs.Unparsable? then fs else Stored(WithoutFiliere(Load(fs).value, id))
  }

  function ClassesAfterDeleteFiliere(fs: Slot<Filiere>, cs: Slot<Classe>, id: string): Slot<Classe> {
    if fs.Unparsable? || cs.Unparsable? then cs
    else Stored(ClassesOutsideFiliere(Load(cs).value, id))
  }

  function StudentsAfterDeleteFiliere(fs: Slot<Filiere>, cs: Slot<Classe>, ss: Slot<Student>, id: string): Slot<Student> {
    if fs.Unparsable? || cs.Unparsable? || ss.Unparsable? then ss
    else StoredStudentsOfClasses(Load(ss).value, ClassesOutsideFiliere(Load(cs).value, id))
  }

  function StoredStudentsOfClasses(ss: seq<Student>, cs: seq<Classe>): Slot<Student> {
    Stored(StudentsOfClasses(ss, cs))
  }

  method DeleteFiliere(ls: LocalStorage, id: string) returns (r: Result<()>)
    modifies ls`filieres, ls`classes, ls`students
    ensures ls.filieres == FilieresAfterDeleteFiliere(old(ls.filieres), id)
    ensures ls.classes == ClassesAfterDeleteFiliere(old(ls.filieres), old(ls.classes), id)
    ensures ls.students == StudentsAfterDeleteFiliere(old(ls.filieres), old(ls.classes), old(ls.students), id)
    ensures r.Ok? <==> !old(ls.filieres).Unparsable? && !old(ls.classes).Unparsable? && !old(ls.students).Unparsable?
  {
    var gotFilieres := GetFilieres(ls);
    if gotFilieres.Thrown? {
      return Thrown;
    }
    var filtered := WithoutFiliere(gotFilieres.value, id);
    SaveFilieres(ls, filtered);

    var gotClasses := GetClasses(ls);
    if gotClasses.Thrown? {
      return Thrown;
    }
    var classes := ClassesOutsideFiliere(gotClasses.value, id);
    SaveClasses(ls, classes);

    var gotStudents := GetStudents(ls);
    if gotStudents.Thrown? {
      return Thrown;
    }
    var students := StudentsOfClasses(gotStudents.value, classes);
    SaveStudents(ls, students);
    return Ok(());
  }

  /** After a completed deleteFiliere no filière has the id, no classe refers
      to it, and every remaining student belongs to a remaining classe: the
      students of the deleted classes go, and so do students that were
      already orphaned. The survivors keep their relative order. */
  lemma DeleteFiliereCascade(fs: seq<Filiere>, cs: seq<Classe>, ss: seq<Student>, id: string)
    ensures forall f :: f in WithoutFiliere(fs, id) ==> f.id != id
    ensures forall c :: c in ClassesOutsideFiliere(cs, id) ==> c.filiereId != id
    ensures var cs' := ClassesOutsideFiliere(cs, id);
      forall s :: s in StudentsOfClasses(ss, cs') ==> exists c :: c in cs' && c.id == s.classeId
    ensures var cs' := ClassesOutsideFiliere(cs, id);
      forall s :: s in ss && (forall c :: c in cs' ==> c.id != s.classeId) ==> s !in StudentsOfClasses(ss, cs')
    ensures IsSubsequence(ClassesOutsideFiliere(cs, id), cs)
    ensures IsSubsequence(StudentsOfClasses(ss, ClassesOutsideFiliere(cs, id)), ss)
  {
    KeepIsSubsequence(cs, (c: Classe) => c.filiereId != id);
    var cs' := ClassesOutsideFiliere(cs, id);
    KeepIsSubsequence(ss, (s: Student) => FindClasse(cs', s.classeId).Some?);
  }

  /** When the filière has no classe (what the delete guard checks) the
      cascade removes no classe. */
  lemma {:induction false} GuardedFiliereDeleteKeepsClasses(cs: seq<Classe>, id: string)
    requires forall c :: c in cs ==> c.filiereId != id
    ensures ClassesOutsideFiliere(cs, id) == cs
  {
    KeepAll(cs, (c: Classe) => c.filiereId != id);
  }

  /** deleteClasse (lines 137-145): the classe, then its students. */
  function ClassesAfterDeleteClasse(cs: Slot<Classe>, id: string): Slot<Classe> {
    if cs.Unparsable? then cs else Stored(WithoutClasse(Load(cs).value, id))
  }

  function StudentsAfterDeleteClasse(cs: Slot<Classe>, ss: Slot<Student>, id: string): Slot<Student> {
    if cs.Unparsable? || ss.Unparsable? then ss
    else Stored(StudentsOutsideClasse(Load(ss).value, id))
  }

  method DeleteClasse(ls: LocalStorage, id: string) returns (r: Result<()>)
    modifies ls`classes, ls`students
    ensures ls.classes == ClassesAfterDeleteClasse(old(ls.classes), id)
    ensures ls.students == StudentsAfterDeleteClasse(old(ls.classes), old(ls.students), id)
    ensures r.Ok? <==> !old(ls.classes).Unparsable? && !old(ls.students).Unparsable?
  {
    var gotClasses := GetClasses(ls);
    if gotClasses.Thrown? {
      return Thrown;
    }
    var filtered := WithoutClasse(gotClasses.value, id);
    SaveClasses(ls, filtered);

    var gotStudents := GetStudents(ls);
    if gotStudents.Thrown? {
      return Thrown;
    }
    var students := StudentsOutsideClasse(gotStudents.value, id);
    SaveStudents(ls, students);
    return Ok(());
  }

  /** After a completed deleteClasse no classe has the id and no student
      refers to it; everything else stays, in order. */
  lemma DeleteClasseCascade(cs: seq<Classe>, ss: seq<Student>, id: string)
    ensures forall c :: c in WithoutClasse(cs, id) ==> c.id != id
    ensures forall s :: s in StudentsOutsideClasse(ss, id) ==> s.classeId != id
    ensures IsSubsequence(WithoutClasse(cs, id), cs)
    ensures IsSubsequence(StudentsOutsideClasse(ss, id), ss)
  {
    KeepIsSubsequence(cs, (c: Classe) => c.id != id);
    KeepIsSubsequence(ss, (s: Student) => s.classeId != id);
  }

  /** When the classe has no student (what the delete guard checks) the
      cascade removes no student. */
  lemma {:induction false} GuardedClasseDeleteKeepsStudents(ss: seq<Student>, id: string)
    requires forall s :: s in ss ==> s.classeId != id
    ensures StudentsOutsideClasse(ss, id) == ss
  {
    KeepAll(ss, (s: Student) => s.classeId != id);
  }

  /** deleteStudent (lines 180-184). */
  function StudentsAfterDeleteStudent(ss: Slot<Student>, id: string): Slot<Student> {
    if ss.Unparsable? then ss else Stored(WithoutStudent(Load(ss).value, id))
  }

  method DeleteStudent(ls: LocalStorage, id: string) returns (r: Result<()>)
    modifies ls`students
    ensures ls.students == StudentsAfterDeleteStudent(old(ls.students), id)
    ensures r.Ok? <==> !old(ls.students).Unparsable?
  {
    var got := GetStudents(ls);
    if got.Thrown? {
      return Thrown;
    }
    var filtered := WithoutStudent(got.value, id);
    SaveStudents(ls, filtered);
    return Ok(());
  }

  /** Deleting a student twice leaves the key as deleting it once. */
  lemma DeleteStudentIdempotent(ss: Slot<Student>, id: string)
    ensures StudentsAfterDeleteStudent(StudentsAfterDeleteStudent(ss, id), id) == StudentsAfterDeleteStudent(ss, id)
  {
    if !ss.Unparsable? {
      KeepIdempotent(Load(ss).value, (s: Student) => s.id != id);
    }
  }

  /** Deleting an id no student has leaves the list as it reads. */
  lemma {:induction false} DeleteUnknownStudent(ss: Slot<Student>, id: string)
    requires !ss.Unparsable?
    requires forall s :: s in Load(ss).value ==> s.id != id
    ensures Load(StudentsAfterDeleteStudent(ss, id)) == Load(ss)
  {
    KeepAll(Load(ss).value, (s: Student) => s.id != id);
  }

  // ======================= initializeDefaultData (lines 229-247)

  const TsdiFields := FiliereFields(
    "Techniques Spécialisées de Développement Informatique", "TSDI",
    "Formation en développement logiciel et applications")

  const TsriFields := FiliereFields(
    "Techniques Spécialisées des Réseaux Informatiques", "TSRI",
    "Formation en administration réseaux et sécurité")

  /** The filières key after seeding: the two defaults when the list reads
      empty, unchanged otherwise. */
  function Seeded(fs: Slot<Filiere>, id1: string, now1: string, id2: string, now2: string): (r: Slot<Filiere>)
    ensures Load(fs) == Ok([]) ==>
              (r.Stored? && |r.items| == 2 && r.items[0].code == "TSDI" && r.items[1].code == "TSRI")
    ensures Load(fs) != Ok([]) ==> r == fs
  {
    if Load(fs) == Ok([]) then Stored([NewFiliere(TsdiFields, id1, now1), NewFiliere(TsriFields, id2, now2)])
    else fs
  }

  /** Seeding is a bootstrap, not a reset: a second run changes nothing,
      whatever fresh ids it is given. */
  lemma SeedIsIdempotent(fs: Slot<Filiere>, id1: string, now1: string, id2: string, now2: string,
                         id3: string, now3: string, id4: string, now4: string)
    ensures Seeded(Seeded(fs, id1, now1, id2, now2), id3, now3, id4, now4) == Seeded(fs, id1, now1, id2, now2)
  {
  }

  /** The two ids are two readings of Date.now() and may be equal. */
  method InitializeDefaultData(ls: LocalStorage, id1: string, now1: string, id2: string, now2: string) returns (r: Result<()>)
    modifies ls`filieres
    ensures ls.filieres == Seeded(old(ls.filieres), id1, now1, id2, now2)
    ensures r.Thrown? <==> old(ls.filieres).Unparsable?
  {
    var got := GetFilieres(ls);
    if got.Thrown? {
      return Thrown;
    }
    if |got.value| == 0 {
      var first := AddFiliere(ls, TsdiFields, id1, now1);
      var second := AddFiliere(ls, TsriFields, id2, now2);
    }
    return Ok(());
  }
}

=== FILE: view_renderer.dfy ===
/** Which screen the students page shows for a navigation state
    (src/components/students/ViewRenderer.tsx), what its back button does,
    and which actions each screen offers. */
module ViewRendering {
  import opened Common
  import opened Entities
  import opened Queries
  import opened Navigation
  import opened Storage
  import opened StudentStorage
  import opened StudentDataHook

  /** A screen and its wiring. `deleteKind` is the kind the screen's delete
      callback passes to onDelete: `(classeId) => onDelete('classe', classeId)`
      on a filière (line 123), `(studentId) => onDelete('student', studentId)`
      on a classe (line 107). */
  datatype Screen =
    | StudentScreen(student: Student, classe: Classe, filiere: Filiere, back: NavAction)
    | StudentDataMissing
    | ClasseScreen(classe: Classe, filiere: Filiere, back: NavAction, deleteKind: EntityKind)
    | ClasseFiliereMissing
    | FiliereScreen(filiere: Filiere, deleteKind: EntityKind)
    | OverviewScreen

  predicate ShowsStudent(s: NavState) {
    s.view == StudentView && s.student.Some?
  }

  predicate ShowsClasse(s: NavState) {
    s.view == ClasseView && s.classe.Some?
  }

  predicate ShowsFiliere(s: NavState) {
    s.view == FiliereView && s.filiere.Some?
  }

  /** The nested conditionals of lines 53-140. */
  function Render(s: NavState, filieres: seq<Filiere>, classes: seq<Classe>): (r: Screen)
    ensures r.StudentScreen? || r == StudentDataMissing <==> ShowsStudent(s)
    ensures r.StudentScreen? ==>
      r.student == s.student.value && r.classe in classes && r.classe.id == r.student.classeId
      && r.filiere in filieres && r.filiere.id == r.classe.filiereId
      && r.back == (if s.classe.Some? then BackToFiliere else BackToOverview)
    ensures r == StudentDataMissing ==>
      (forall c :: c in classes ==> c.id != s.student.value.classeId)
      || exists c :: c in classes && c.id == s.student.value.classeId && forall f :: f in filieres ==> f.id != c.filiereId
    ensures r.ClasseScreen? || r == ClasseFiliereMissing <==> !ShowsStudent(s) && ShowsClasse(s)
    ensures r.ClasseScreen? ==>
      r.classe == s.classe.value && r.filiere in filieres && r.filiere.id == r.classe.filiereId
      && r.back == (if s.filiere.Some? then ViewFiliere(s.filiere.value) else BackToOverview)
      && r.deleteKind == StudentKind
    ensures r == ClasseFiliereMissing ==> forall f :: f in filieres ==> f.id != s.classe.value.filiereId
    ensures r.FiliereScreen? <==> !ShowsStudent(s) && !ShowsClasse(s) && ShowsFiliere(s)
    ensures r.FiliereScreen? ==> r.filiere == s.filiere.value && r.deleteKind == ClasseKind
    ensures r == OverviewScreen <==> !ShowsStudent(s) && !ShowsClasse(s) && !ShowsFiliere(s)
  {
    if ShowsStudent(s) then
      var student := s.student.value;
      var classe := FindClasse(classes, student.classeId);
      if classe.None? then StudentDataMissing
      else
        var filiere := FindFiliere(filieres, classe.value.filiereId);
        if filiere.None? then StudentDataMissing
        else StudentScreen(student, classe.value, filiere.value, if s.classe.Some? then BackToFiliere else BackToOverview)
    else if ShowsClasse(s) then
      var classe := s.classe.value;
      var filiere := FindFiliere(filieres, classe.filiereId);
      if filiere.None? then ClasseFiliereMissing
      else ClasseScreen(classe, filiere.value, if s.filiere.Some? then ViewFiliere(s.filiere.value) else BackToOverview, StudentKind)
    else if ShowsFiliere(s) then FiliereScreen(s.filiere.value, ClasseKind)
    else OverviewScreen
  }

  /** The navigation a screen offers: the overview lists filières and
      students, a filière its classes, a classe its students, and every
      screen has its back button (the error screens go to the overview). */
  predicate Offers(screen: Screen, a: NavAction) {
    match screen
    case OverviewScreen => a.ViewFiliere? || a.ViewStudent?
    case FiliereScreen(_, _) => a == BackToOverview || a.ViewClasse?
    case ClasseScreen(_, _, back, _) => a == back || a.ViewStudent?
    case StudentScreen(_, _, _, back) => a == back
    case StudentDataMissing => a == BackToOverview
    case ClasseFiliereMissing => a == BackToOverview
  }

  /** The kinds a screen can pass to onDelete: any kind from the overview,
      which hands onDelete on unchanged, and the wired kind from a filière or
      classe screen. */
  predicate OffersDelete(screen: Screen, kind: EntityKind) {
    match screen
    case OverviewScreen => true
    case FiliereScreen(_, k) => kind == k
    case ClasseScreen(_, _, _, k) => kind == k
    case _ => false
  }

  /** A selected classe always comes with a selected filière. */
  predicate Coherent(s: NavState) {
    s.classe.Some? ==> s.filiere.Some?
  }

  /** Starting from the initial state and following only offered actions, a
      classe is never selected without a filière: a classe can only be
      opened from a filière screen. */
  lemma OfferedStepsStayCoherent(s: NavState, filieres: seq<Filiere>, classes: seq<Classe>, a: NavAction)
    requires Coherent(s)
    requires Offers(Render(s, filieres, classes), a)
    ensures Coherent(Step(s, a))
  {
    if a.ViewClasse? {
      assert Render(s, filieres, classes).FiliereScreen?;
    }
  }

  lemma InitialIsCoherent()
    ensures Coherent(Initial) && Render(Initial, [], []) == OverviewScreen
  {
  }

  /** Back from a student never lands on the classe screen: it goes to the
      filière screen when a classe was selected (which, in a coherent state,
      means a filière was too), and to the overview otherwise. */
  lemma StudentBackSkipsClasse(s: NavState, filieres: seq<Filiere>, classes: seq<Classe>)
    requires Coherent(s)
    requires Render(s, filieres, classes).StudentScreen?
    ensures var t := Render(Step(s, Render(s, filieres, classes).back), filieres, classes);
      !t.ClasseScreen?
      && (s.classe.Some? ==> t == FiliereScreen(s.filiere.value, ClasseKind))
      && (s.classe.None? ==> t == OverviewScreen)
  {
    var back := Render(s, filieres, classes).back;
    var t := Step(s, back);
    if s.classe.Some? {
      assert t.view == FiliereView && t.filiere == s.filiere && t.classe.None? && t.student.None?;
    } else {
      assert t == Initial;
    }
  }

  /** Back from a classe re-enters the selected filière, or the overview
      when none is selected. */
  lemma ClasseBackTarget(s: NavState, filieres: seq<Filiere>, classes: seq<Classe>)
    requires Render(s, filieres, classes).ClasseScreen?
    ensures var t := Render(Step(s, Render(s, filieres, classes).back), filieres, classes);
      (s.filiere.Some? ==> t == FiliereScreen(s.filiere.value, ClasseKind))
      && (s.filiere.None? ==> t == OverviewScreen)
  {
    var back := Render(s, filieres, classes).back;
    var t := Step(s, back);
    if s.filiere.Some? {
      assert t.view == FiliereView && t.filiere == s.filiere;
    } else {
      assert t == Initial;
    }
  }

  /** The deletes a filière or classe screen renders go to onDelete with
      the screen's wired kind, never with the filière kind. Taken through
      handleDelete's guard, a filière screen's delete is refused exactly when
      a student of the snapshot is in that classe, and a classe screen's is
      never refused. */
  lemma SubviewDeletesAreGuarded(s: NavState, filieres: seq<Filiere>, classes: seq<Classe>, students: seq<Student>, id: string)
    requires Render(s, filieres, classes).FiliereScreen? || Render(s, filieres, classes).ClasseScreen?
    ensures var r := Render(s, filieres, classes);
      !OffersDelete(r, FiliereKind) && OffersDelete(r, r.deleteKind)
      && (r.FiliereScreen? ==>
            r.deleteKind == ClasseKind
            && (DeleteRefused(r.deleteKind, id, classes, students) <==> exists st :: st in students && st.classeId == id))
      && (r.ClasseScreen? ==>
            r.deleteKind == StudentKind && !DeleteRefused(r.deleteKind, id, classes, students))
  {
  }

  /** A delete from the filière or classe screen rendered for `s` over the
      hook's snapshots, with onDelete being the hook's handleDelete: it goes
      through the guard, never writes the filières key, and a classe
      screen's delete removes just that student. */
  method SubviewDelete(data: StudentData, s: NavState, id: string) returns (outcome: DeleteOutcome)
    requires Render(s, data.filieres, data.classes).FiliereScreen? || Render(s, data.filieres, data.classes).ClasseScreen?
    modifies data.storage`filieres, data.storage`classes, data.storage`students, data`refreshKey
    ensures data.storage.filieres == old(data.storage.filieres)
    ensures ShowsFiliere(s) && !ShowsClasse(s) && !ShowsStudent(s) ==>
      (outcome == Blocked <==> exists st :: st in data.students && st.classeId == id)
      && (outcome != Blocked ==>
            data.storage.classes == ClassesAfterDeleteClasse(old(data.storage.classes), id)
            && data.storage.students == StudentsAfterDeleteClasse(old(data.storage.classes), old(data.storage.students), id))
    ensures Render(s, data.filieres, data.classes).ClasseScreen? ==>
      outcome != Blocked && data.storage.classes == old(data.storage.classes)
      && data.storage.students == StudentsAfterDeleteStudent(old(data.storage.students), id)
  {
    var screen := Render(s, data.filieres, data.classes);
    outcome := data.HandleDelete(screen.deleteKind, id);
  }
}
